=== FILE: README.md ===
# dockeraizer in Dafny

dockeraizer is a small Streamlit tool. It looks at a project directory, renders the directory tree as
markdown, and collects the well-known build and configuration files it finds there. It then sends
both to a language-model completion endpoint, streams the reply back, and cuts the reply into a
Dockerfile, a docker-compose file and a short summary. Each result is recorded in the session history.

This project models the deterministic parts of `dockeraizer.py`. The file system and the model
endpoint are replaced by plain values:

- `Text` holds the Python string operations the program relies on: `strip`, `lower`, `startswith`,
  `split`, `join` and `replace`. Joining the pieces of a split gives the text back, and splitting a
  join gives the pieces back when no piece contains the separator's first character.
- `Segmenter` models `extract_docker_files`. It has a reference function `Extract` and the loop as the
  source writes it, in `ExtractDockerFiles`. It is proved that:
  - outputs are trimmed;
  - the last labelled block wins;
  - blank blocks never matter;
  - a reply made of a summary, a fenced block starting with a lower-case `dockerfile` and a fenced
    block starting with `yaml`, with only whitespace between and after the blocks, is cut back into
    its three trimmed parts. This holds when no part contains a backquote, the summary does not
    start with the Dockerfile label, and neither body contains its own label word (nor, for the
    compose body, `docker-compose.yml`), because those words are removed from the bodies too.
- `DirectoryTree` models `generate_directory_markdown` over a tree `Dir(name, children) | File(name)`.
  - The rendering is specified row by row. The recursive method with its loop is proved to produce
    exactly that rendering.
  - It is proved that hidden entries never appear, and that each level lists its visible children
    sorted with directories first and then by lower-cased name.
  - It is also proved that every directory line is immediately followed by its own subtree one
    level deeper, and that the icon depends only on the lower-cased suffix.
- `ConfigCollector` models `read_important_files` over a map from child name to what is stored
  there. The result is an insertion-ordered dictionary, and its keys are exactly the listed names
  that are files, in list order and without repetition.
- `Prompt` builds the `config_files_text` join and the `complete_prompt` text.
- `Session` holds the chunk loop of `stream_response` and a `SessionState` class with the
  `docker_files` history and the `message_count` counter. A finished, non-empty reply adds exactly
  one history record, stamped with the previous counter, and bumps the counter. A failed stream
  adds one error chunk and no record.

Three behaviours of the program are easy to misread; the model follows the code:

- Every occurrence of the label words is removed from a block, not only the first or leading one.
  `str.replace` removes them all, even inside the file body. The strings removed are
  `dockerfile`, `docker-compose.yml` and `yaml`.
- A reply with no fence at all is not turned into three empty strings. Its trimmed text becomes the
  summary, or the Dockerfile when it starts with the Dockerfile label (`ExtractWithoutFence`).
- A directory whose listing fails does not render an "access denied" line while its siblings carry
  on (see "Left out").

The icon strings are the exact characters in the source text. They are the UTF-8 bytes of the
folder, scroll, framed-picture, page and clipboard emoji read as Mac Roman, and that is what the
program as written prints.

## Model

| member | source | states |
|---|---|---|
| Text.Strip | dockeraizer.py:100-101 | `strip()` never lengthens its argument |
| Text.LStrip | dockeraizer.py:100-101 | the first half of `strip()`: drops leading whitespace, never lengthening the text |
| Text.RStrip | dockeraizer.py:100-101 | the second half of `strip()`: drops trailing whitespace, never lengthening the text |
| Text.StripSpec | dockeraizer.py:100-101 | the result of `strip()` is a slice of the input; everything cut off on either side is whitespace; a non-empty result starts and ends with non-whitespace |
| Text.LStripSpec | dockeraizer.py:100-101 | the first half of `strip()` removes exactly the leading run of whitespace |
| Text.RStripSpec | dockeraizer.py:100-101 | the second half of `strip()` removes exactly the trailing run of whitespace |
| Text.StripEmptyIffBlank | dockeraizer.py:104 | `block.strip()` is empty exactly when the block is whitespace only, which is the blank-segment test |
| Text.StripIdempotent | dockeraizer.py:101 | trimming twice is trimming once |
| Text.Lower | dockeraizer.py:100 | `lower()`: each ASCII capital replaced by its small letter, other characters kept, same length |
| Text.LowerSpec | dockeraizer.py:100 | `lower()` maps each character to its lower-case form and keeps the length |
| Text.LowerAppend | dockeraizer.py:100 | `lower()` distributes over concatenation |
| Text.StartsWith | dockeraizer.py:100 | `startswith`: the text begins with the given prefix |
| Text.IndexOf | dockeraizer.py:97 | the position of the first occurrence of the separator, or none, as `str.find` reports it |
| Text.IndexOfSpec | dockeraizer.py:97 | the search that drives `split` finds the first occurrence of the fence, and finds none exactly when the fence does not occur |
| Text.Split | dockeraizer.py:97 | `str.split` always returns at least one piece |
| Text.SplitPiecesFree | dockeraizer.py:97 | no piece produced by `split` contains the separator |
| Text.Join | dockeraizer.py:126 | `sep.join(parts)`: the parts in order with the separator between neighbours, and the empty string for no parts |
| Text.JoinSplit | dockeraizer.py:97 | joining the pieces of a split with the separator gives back the original text |
| Text.SplitJoin | dockeraizer.py:97 | splitting a join of a non-empty list of pieces that cannot hold the separator's first character gives back the pieces |
| Text.Replace | dockeraizer.py:108-111 | `replace(pat, repl)`: split at every non-overlapping occurrence of the pattern and joined with the replacement |
| Text.ReplaceJoin | dockeraizer.py:108-111 | when no piece contains the pattern's first character, replacing in text made of pieces joined by the pattern replaces every occurrence, not only the first |
| Text.FirstAfter | dockeraizer.py:108-111 | when the pattern's first character occurs nowhere else in it, the first occurrence in `a + pat + b` is right after a pattern-free `a` |
| Text.SplitAround | dockeraizer.py:108-111 | for such a pattern, splitting `a + pat + b` with pattern-free `a` and `b` gives `[a, b]` |
| Text.RemoveBoth | dockeraizer.py:108-111 | for such a pattern, `replace(pat, "")` on `pat + head + pat + tail` with pattern-free `head` and `tail` removes both occurrences and leaves `head + tail` |
| Text.StripNewlines | dockeraizer.py:108 | trimming text wrapped in two newlines gives the text back when it neither starts nor ends with whitespace |
| Text.RemoveLeading | dockeraizer.py:108 | `replace(label, "")` on a label followed by label-free text leaves exactly that text |
| Text.ReplaceAbsent | dockeraizer.py:108-111 | `replace` of a string that does not occur changes nothing |
| Text.Concat | dockeraizer.py:159-160 | the text built by `+=` over a list of chunks: the chunks one after another |
| Text.ConcatAppend | dockeraizer.py:159-160 | accumulating chunks one after another gives the concatenation of the parts |
| Text.JoinSnoc | dockeraizer.py:126-128 | a `join` over a non-empty list of parts with one more part appended adds the separator and that part at the end |
| Segmenter.StartsWithLabel | dockeraizer.py:100-109 | the label test: the trimmed, lower-cased block starts with the tag |
| Segmenter.Classify | dockeraizer.py:107-109 | a block is a Dockerfile block when its trimmed, lower-cased text starts with `dockerfile`; otherwise a compose block when it starts with `yaml` or `docker-compose`; otherwise neither |
| Segmenter.Cleaned | dockeraizer.py:108-112 | a Dockerfile block with every `dockerfile` removed, then trimmed; a compose block with every `docker-compose.yml` and then every `yaml` removed, then trimmed |
| Segmenter.HasSummary | dockeraizer.py:100 | the first segment is taken as the summary when it does not start with the Dockerfile label |
| Segmenter.Remaining | dockeraizer.py:99-102 | the segments left after the summary, if any, is taken off |
| Segmenter.NonBlank | dockeraizer.py:104 | the segments that are not whitespace only, in their original order |
| Segmenter.Latest | dockeraizer.py:106-112 | the value an output holds after the loop: the cleaned text of the last block with its label, or the empty initial value |
| Segmenter.InPlay | dockeraizer.py:97-102 | the fence-separated segments still in play after the summary step |
| Segmenter.Extract | dockeraizer.py:91-114 | the reference result: the Dockerfile and compose outputs from the last non-blank in-play block of each kind, and the summary from the first segment unless it is Dockerfile-labelled |
| Segmenter.ExtractDockerFiles | dockeraizer.py:91-114 | the loop's three outputs equal `Extract`: the summary is the trimmed first segment unless that segment is Dockerfile-labelled; each other output comes from the last non-blank in-play block with its label, cleaned |
| Segmenter.LatestIsLastMatch | dockeraizer.py:106-112 | an output is the cleaned text of the last block carrying its label, so later blocks overwrite earlier ones |
| Segmenter.LatestWithoutMatch | dockeraizer.py:93-95 | with no block carrying a label, that output stays the empty initial value |
| Segmenter.BlankIsUnlabelled | dockeraizer.py:104-109 | a whitespace-only block carries neither label |
| Segmenter.LatestIgnoresBlank | dockeraizer.py:104 | the blank-segment filter never changes an output |
| Segmenter.LatestTrimmed | dockeraizer.py:108-112 | the Dockerfile and compose outputs are trimmed |
| Segmenter.ExtractTrimmed | dockeraizer.py:100-112 | all three outputs are trimmed strings |
| Segmenter.ExtractEmpty | dockeraizer.py:93-104 | the empty reply gives `("", "", "")` |
| Segmenter.ExtractWithoutFence | dockeraizer.py:97-104 | a reply without a fence yields its trimmed text as the summary and empty files; when it starts with the Dockerfile label, the whole reply is the cleaned Dockerfile and the summary is empty |
| Segmenter.ExtractTakesLastLabelled | dockeraizer.py:106-112 | each file output is the cleaned text of the last in-play block classified with its label |
| Segmenter.ExtractWithoutLabelled | dockeraizer.py:106-112 | without an in-play block of a kind, that output is empty |
| Segmenter.SummaryOrFirstBlock | dockeraizer.py:99-102 | the summary is the trimmed first segment exactly when it lacks the Dockerfile label; otherwise the summary is empty and that segment stays in play as a Dockerfile block |
| Segmenter.LabelledBlock | dockeraizer.py:107-109 | a block that starts with a label holding no capital letter and no whitespace (`dockerfile`, `yaml`, `docker-compose`) passes that label's case-insensitive test |
| Segmenter.DockerfileBlockClassified | dockeraizer.py:107 | a block starting with `dockerfile` is classified as a Dockerfile block |
| Segmenter.ComposeLabelBlockClassified | dockeraizer.py:109 | a block starting with `docker-compose` is classified as a compose block |
| Segmenter.YamlBlockClassified | dockeraizer.py:109 | a block starting with `yaml` is classified as a compose block |
| Segmenter.LabelRemovalIsCaseSensitive | dockeraizer.py:107-108 | a block without a lower-case `dockerfile` keeps all its trimmed text, so an upper-case label survives the removal |
| Segmenter.DockerfileLabelRemovedInBody | dockeraizer.py:108 | for any body with one more `dockerfile` inside it, the Dockerfile output is the trimmed text with both occurrences removed; the only condition is that the text before and after the second occurrence holds no further `dockerfile` |
| Segmenter.YamlLabelRemovedInBody | dockeraizer.py:110-112 | for any compose body with one more `yaml` inside it (say in `config.yaml`), both occurrences are removed; the conditions are that the text before and after the second occurrence holds no further `yaml` and the block does not mention `docker-compose.yml` |
| Segmenter.DockerfileLabelRemovedExample | dockeraizer.py:108 | a block `dockerfile` / `COPY dockerfile.sh /` yields the Dockerfile `COPY .sh /` |
| Segmenter.YamlLabelRemovedExample | dockeraizer.py:110-112 | a block `yaml` / `env: yaml.env` yields the compose text `env: .env` |
| Segmenter.FencedSegments | dockeraizer.py:97 | four fences around backquote-free text split the reply into exactly the five pieces between them |
| Segmenter.DockerfilePart | dockeraizer.py:106-108 | in a well-formed reply the Dockerfile output is the trimmed body of the `dockerfile` block |
| Segmenter.ComposePart | dockeraizer.py:109-112 | in a well-formed reply the compose output is the trimmed body of the `yaml` block |
| Segmenter.WellFormedReply | dockeraizer.py:91-114 | a summary, a block starting with lower-case `dockerfile` and a block starting with `yaml`, separated only by whitespace, come back as exactly the three trimmed parts, when no part holds a backquote, the summary does not start with the Dockerfile label and neither body holds its own label word (nor `docker-compose.yml` in the compose body) |
| DirectoryTree.IsHidden | dockeraizer.py:63 | an entry is hidden when its name starts with `.` |
| DirectoryTree.Visible | dockeraizer.py:63 | the listing keeps only entries of the directory that are not hidden |
| DirectoryTree.VisibleSpec | dockeraizer.py:63 | an entry survives the filter exactly when it is listed and its name does not start with `.` |
| DirectoryTree.LexLe | dockeraizer.py:64 | Python's string order: code point by code point, a proper prefix first |
| DirectoryTree.LexLeTotal | dockeraizer.py:64 | string order on the lower-cased names is total |
| DirectoryTree.LexLeTrans | dockeraizer.py:64 | string order on the lower-cased names is transitive |
| DirectoryTree.KeyLe | dockeraizer.py:64 | the order of the key `(not is_dir, name.lower())`: directories before files, then by lower-cased name |
| DirectoryTree.Sorted | dockeraizer.py:64 | every earlier entry is at most every later one in key order |
| DirectoryTree.KeyLeTotal | dockeraizer.py:64 | any two entries are comparable by the sort key |
| DirectoryTree.KeyLeTrans | dockeraizer.py:64 | the sort key order is transitive |
| DirectoryTree.Insert | dockeraizer.py:64 | an entry placed into a key-sorted list just before the first entry whose key is not smaller |
| DirectoryTree.SortEntries | dockeraizer.py:64 | `sorted` by the key, as a stable insertion sort |
| DirectoryTree.InsertPerm | dockeraizer.py:64 | inserting into the sorted list adds exactly that entry |
| DirectoryTree.SortEntriesPerm | dockeraizer.py:64 | `sorted` returns a permutation of its input |
| DirectoryTree.InsertSorted | dockeraizer.py:64 | inserting keeps the list sorted by the key |
| DirectoryTree.SortEntriesSorted | dockeraizer.py:64 | `sorted` returns the entries ordered by (not a directory, lower-cased name) |
| DirectoryTree.Ordered | dockeraizer.py:63-64 | every entry of a level is a visible child of the directory |
| DirectoryTree.OrderedSpec | dockeraizer.py:63-64 | a level is a permutation of the visible children, holds exactly the non-hidden children, and is sorted by the key |
| DirectoryTree.DirectoriesFirst | dockeraizer.py:64 | within a level, every entry before a directory is a directory |
| DirectoryTree.LastDot | dockeraizer.py:72 | `rfind('.')`: the index found holds a dot with no dot after it, and no index means no dot |
| DirectoryTree.Suffix | dockeraizer.py:72 | `Path.suffix` is empty or a proper end of the name that starts with its only dot and has something after it |
| DirectoryTree.FileIcon | dockeraizer.py:73-80 | the icon for a lower-cased extension: code, image or document icon by its list, the default icon otherwise |
| DirectoryTree.FileIconSpec | dockeraizer.py:73-80 | the lists are disjoint, so a file gets the code, image or document icon exactly when its extension is in that list, and the default icon otherwise |
| DirectoryTree.LastDotLower | dockeraizer.py:72 | lower-casing does not move the last dot |
| DirectoryTree.SuffixLower | dockeraizer.py:72 | the suffix of the lower-cased name is the lower-cased suffix |
| DirectoryTree.IconIgnoresCase | dockeraizer.py:72-80 | two names equal up to case get the same icon |
| DirectoryTree.Indent | dockeraizer.py:67 | `"    " * indent_level` |
| DirectoryTree.IndentSpec | dockeraizer.py:67 | the indent is four spaces per level |
| DirectoryTree.Rows | dockeraizer.py:60-81 | the lines a directory renders at a level: each ordered visible child, a directory followed by its own lines one level deeper |
| DirectoryTree.RowsUpTo | dockeraizer.py:66-81 | the lines of the first `n` iterations of the loop over the ordered children |
| DirectoryTree.Subtree | dockeraizer.py:68-70 | the lines the recursive call adds after a child: its subtree for a directory, nothing for a file |
| DirectoryTree.RowText | dockeraizer.py:67-81 | one line: the indent, the folder icon and the bold name with `/` for a directory, or the file's icon and name, then a newline |
| DirectoryTree.Render | dockeraizer.py:60-81 | the markdown of a list of lines: their texts one after another |
| DirectoryTree.RenderAppend | dockeraizer.py:60-81 | the markdown of consecutive rows is the concatenation of their markdown |
| DirectoryTree.RenderSnoc | dockeraizer.py:69-81 | appending a line and then a subtree appends their texts in that order |
| DirectoryTree.GenerateDirectoryMarkdown | dockeraizer.py:57-81 | the recursive loop produces exactly the row-by-row rendering `Render(Rows(dir, indentLevel))` |
| DirectoryTree.RowsVisibleAndDeeper | dockeraizer.py:63-70 | no rendered line shows a hidden entry, and none is shallower than the starting level |
| DirectoryTree.SubtreeDeeper | dockeraizer.py:68-70 | the rows under a child are all at least as deep as the level they are rendered at |
| DirectoryTree.AtDepthAppend | dockeraizer.py:66-70 | picking the rows of one depth distributes over concatenation |
| DirectoryTree.AtDepthNone | dockeraizer.py:70 | rows that are all deeper contribute nothing at this depth |
| DirectoryTree.AtDepthSnoc | dockeraizer.py:66-70 | a line followed by a deeper subtree adds exactly that entry at its depth |
| DirectoryTree.TopLevel | dockeraizer.py:63-70 | the lines at the starting level are exactly the visible children in sort order, one line each |
| DirectoryTree.SubtreeFollowsExtend | dockeraizer.py:69-70 | appending rows keeps a directory's subtree right after its line |
| DirectoryTree.SubtreeFollowsShift | dockeraizer.py:69-70 | prefixing rows keeps a directory's subtree right after its line |
| DirectoryTree.DirFollowedBySubtree | dockeraizer.py:68-70 | every directory line is immediately followed by that directory's own rendering one level deeper |
| DirectoryTree.RowTextShape | dockeraizer.py:67-81 | each line starts with four spaces per level and ends with a newline, which is its only newline when the name has none |
| ConfigCollector.IsFile | dockeraizer.py:46-47 | `(path / filename).is_file()` holds for a name present in the directory as a file |
| ConfigCollector.FileText | dockeraizer.py:48-52 | the recorded text: the file's content, or `Error reading file: ` followed by the error when reading fails |
| ConfigCollector.Collected | dockeraizer.py:42-54 | the dictionary after probing a list of names: each name that is a file, in probing order, with its recorded text |
| ConfigCollector.Put | dockeraizer.py:50-52 | dictionary assignment appends a new key at the end and keeps the size for an existing key |
| ConfigCollector.FilesAmong | dockeraizer.py:45-47 | no more names are found than are probed |
| ConfigCollector.ImportantFilesDistinct | dockeraizer.py:17-39 | the manifest list has fifteen distinct names |
| ConfigCollector.ReadImportantFiles | dockeraizer.py:41-54 | the loop's dictionary is `Collected(dir, ImportantFiles)`: each listed name that is a file, in list order, with its text or the error placeholder |
| ConfigCollector.CollectedKeys | dockeraizer.py:45-52 | the keys are the probed names that are files, in probing order |
| ConfigCollector.FilesAmongSpec | dockeraizer.py:45-47 | a name is found exactly when it is probed and is a file |
| ConfigCollector.FilesAmongDistinct | dockeraizer.py:45-47 | distinct probes give distinct keys |
| ConfigCollector.CollectedValues | dockeraizer.py:48-52 | each recorded text is the file's content or, when reading failed, `Error reading file: ` and the reason |
| ConfigCollector.ReadImportantFilesSpec | dockeraizer.py:7-54 | the keys are exactly the listed names that are files, in list order, distinct, at most fifteen; an unreadable file maps to the error text |
| ConfigCollector.CollectedLocal | dockeraizer.py:45-47 | only the fifteen listed names influence the result |
| Prompt.EntryTexts | dockeraizer.py:127 | one `=== name ===` block per collected file, in dictionary order |
| Prompt.ConfigFilesText | dockeraizer.py:126-128 | `config_files_text`: the file blocks joined by a blank line |
| Prompt.CompletePrompt | dockeraizer.py:130-136 | the prompt template: tree header, the tree markdown, files header, the files text and a final newline |
| Prompt.ConfigEntryText | dockeraizer.py:127 | a file block is its name and content plus nine characters of framing |
| Prompt.ConfigFilesTextEmpty | dockeraizer.py:126-128 | the files section is empty exactly when no file was collected |
| Prompt.ConfigFilesTextSnoc | dockeraizer.py:126-128 | one more collected file appends a blank line and its block, so blocks follow collector order |
| Session.Forwardable | dockeraizer.py:158-159 | `if chunk:` holds for present, non-empty text |
| Session.AllText | dockeraizer.py:158 | the text of every part, a missing one counting as empty |
| Session.Output | dockeraizer.py:156-180 | what the generator yields: the forwarded chunks, then one `Error during streaming: ` chunk when the stream fails |
| Session.Record | dockeraizer.py:167-174 | the history record: the timestamp and the three extracted strings |
| Session.Forwarded | dockeraizer.py:156-160 | no more chunks are forwarded than arrive |
| Session.ReadChunks | dockeraizer.py:156-160 | the loop forwards exactly `Forwarded(parts)` and accumulates their concatenation |
| Session.ForwardedSpec | dockeraizer.py:157-160 | every forwarded chunk is non-empty, and every present non-empty chunk is forwarded |
| Session.FullResponseIsAllText | dockeraizer.py:156-160 | skipping missing and empty chunks loses no text: the full response is the text of all parts |
| Session.FullResponseEmpty | dockeraizer.py:158-163 | the full response is empty exactly when no chunk is present and non-empty |
| Session.FailureYieldsOneErrorChunk | dockeraizer.py:179-180 | a failed stream yields what was forwarded and then exactly one `Error during streaming: ` chunk |
| Session.SessionState.constructor | dockeraizer.py:193-196 | the session starts with an empty history and a zero counter |
| Session.SessionState.StreamResponse | dockeraizer.py:117-180 | it builds the prompt from the rendered tree and collected files, and yields `Output(completion)`; it keeps the counter equal to the history length and each timestamp equal to its position; a normal non-empty reply appends one record stamped with the old counter and raises the counter by one, and anything else leaves both unchanged |

## Left out

- The Streamlit page, widgets, API-key and path checks of `main` (dockeraizer.py:183-296). They are user-interface control flow with no computed result.
- The litellm `completion` call and its transport. The stream is given as a `Completion` value: the parts it delivers and the message of the exception it raises, if any. The model name and the API key only reach that call and are not modelled.
- The fixed system-prompt text (dockeraizer.py:138-149) and the two-message request. They are constant data with no behaviour.
- Real file-system access (`iterdir`, `is_dir`, `is_file`, `read_text`). The directory is given twice: as an `Entry` tree for rendering and as a `Directory` map for the collector. The model does not tie these two views together.
- The directory-listing error handlers (dockeraizer.py:83-86). As written, a listing that fails inside the comprehension at line 63 reaches a handler that reads `indent` before line 67 has bound it. That raises `UnboundLocalError` instead of printing the marker. A parent's generic handler then records that error and stops listing its remaining siblings. `GenerateDirectoryMarkdown` assumes every listing succeeds.
- DirectoryTree.GenerateDirectoryMarkdown: requires the root to be a directory; listing a plain file fails and lands in the error path above.
- Symbolic links and special files: `is_dir` and `is_file` are taken at face value.
- Unicode case mapping and whitespace: `lower()` maps only ASCII letters, and `strip()` removes the ASCII whitespace set plus the separator controls U+001C to U+001F.
- The stability of `sorted` on equal keys: the insertion sort is stable, but no lemma states it.
- The laziness of the `stream_response` generator. `StreamResponse` runs it to the end, as `st.write_stream` does, and returns everything it yields. A session without a `message_count` entry is not modelled, because `main` always creates one first (dockeraizer.py:193-196).
- ConfigCollector.Put: for a key that is already present, states only that the size is kept, not where the new value lands; the collector never assigns a key twice.

=== FILE: configcollector.dfy ===
/**
 * The configuration-file collector of dockeraizer (read_important_files).
 * The project directory is a map from child name to what `is_file` and
 * `read_text` would find there; a name missing from the map does not exist.
 */
module ConfigCollector {

  /** What the project directory holds under one name. */
  datatype Child =
    | Readable(content: string)   // a file whose text can be read
    | Unreadable(reason: string)  // a file whose read raises; `reason` is the exception text
    | NotAFile                    // a directory or anything else `is_file` rejects

  type Directory = map<string, Child>

  /** An insertion-ordered dictionary from file name to text. */
  type Found = seq<(string, string)>

  /** The fixed manifest list, in the order it is probed. */
  const ImportantFiles: seq<string> := [
    "requirements.txt", "setup.py", "pyproject.toml", "Pipfile",
    "package.json", "package-lock.json",
    "pom.xml", "build.gradle",
    "go.mod",
    "Cargo.toml",
    "Dockerfile", "docker-compose.yml",
    "config.json", "config.yaml", "config.yml"
  ]

  const ReadErrorPrefix: string := "Error reading file: "

  predicate IsFile(dir: Directory, name: string) {
    name in dir && !dir[name].NotAFile?
  }

  /** The text recorded for a file: its content, or the error placeholder. */
  function FileText(child: Child): string
    requires !child.NotAFile?
  {
    match child
    case Readable(content) => content
    case Unreadable(reason) => ReadErrorPrefix + reason
  }

  function Keys(found: Found): seq<string> {
    seq(|found|, k requires 0 <= k < |found| => found[k].0)
  }

  /** `d[key] = value` on an insertion-ordered dictionary: an existing key
      keeps its place and takes the new value, a new key goes last. */
  function Put(found: Found, key: string, value: string): (r: Found)
    ensures key in Keys(found) ==> |r| == |found|
    ensures key !in Keys(found) ==> r == found + [(key, value)]
  {
    if found == [] then [(key, value)]
    else if found[0].0 == key then
      assert Keys(found)[0] == key;
      [(key, value)] + found[1..]
    else
      assert Keys(found)[1..] == Keys(found[1..]);
      [found[0]] + Put(found[1..], key, value)
  }

  /** The dictionary the collector builds from the names probed so far. */
  function Collected(dir: Directory, names: seq<string>): Found {
    if names == [] then []
    else
      var name := names[|names| - 1];
      Collected(dir, names[..|names| - 1])
        + (if IsFile(dir, name) then [(name, FileText(dir[name]))] else [])
  }

  /** The probed names that are files, in probing order. */
  function FilesAmong(dir: Directory, names: seq<string>): (r: seq<string>)
    ensures |r| <= |names|
  {
    if names == [] then []
    else
      var name := names[|names| - 1];
      FilesAmong(dir, names[..|names| - 1]) + (if IsFile(dir, name) then [name] else [])
  }

  predicate Distinct(names: seq<string>) {
    forall i, j :: 0 <= i < j < |names| ==> names[i] != names[j]
  }

  lemma ImportantFilesDistinct()
    ensures |ImportantFiles| == 15 && Distinct(ImportantFiles)
  {
  }

  /** `read_important_files`: probe every listed name in order and record
      the text of each one that is a file. */
  method ReadImportantFiles(dir: Directory) returns (found: Found)
    ensures found == Collected(dir, ImportantFiles)
  {
    ImportantFilesDistinct();
    found := [];
    for i := 0 to |ImportantFiles|
      invariant found == Collected(dir, ImportantFiles[..i])
    {
      var filename := ImportantFiles[i];
      assert ImportantFiles[..i + 1][..i] == ImportantFiles[..i];
      if filename in dir && !dir[filename].NotAFile? {
        CollectedKeys(dir, ImportantFiles[..i]);
        FilesAmongSpec(dir, ImportantFiles[..i]);
        assert filename !in ImportantFiles[..i];
        var content := FileText(dir[filename]);
        found := Put(found, filename, content);
      }
    }
    assert ImportantFiles[..|ImportantFiles|] == ImportantFiles;
  }

  /** The keys are the probed names that are files, in probing order. */
  lemma {:induction false} CollectedKeys(dir: Directory, names: seq<string>)
    ensures Keys(Collected(dir, names)) == FilesAmong(dir, names)
  {
    if names != [] {
      var name := names[|names| - 1];
      CollectedKeys(dir, names[..|names| - 1]);
      var front := Collected(dir, names[..|names| - 1]);
      var last: Found := if IsFile(dir, name) then [(name, FileText(dir[name]))] else [];
      assert Keys(front + last) == Keys(front) + Keys(last);
    }
  }

  /** A name is a key exactly when it was probed and is a file. */
  lemma {:induction false} FilesAmongSpec(dir: Directory, names: seq<string>)
    ensures forall name :: name in FilesAmong(dir, names) <==> name in names && IsFile(dir, name)
  {
    if names != [] {
      FilesAmongSpec(dir, names[..|names| - 1]);
      assert names == names[..|names| - 1] + [names[|names| - 1]];
    }
  }

  /** Distinct probes give distinct keys. */
  lemma {:induction false} FilesAmongDistinct(dir: Directory, names: seq<string>)
    requires Distinct(names)
    ensures Distinct(FilesAmong(dir, names))
  {
    if names != [] {
      var name := names[|names| - 1];
      FilesAmongDistinct(dir, names[..|names| - 1]);
      FilesAmongSpec(dir, names[..|names| - 1]);
      assert name !in names[..|names| - 1];
    }
  }

  /** Every recorded text is the file's content, or the error placeholder
      when reading it failed. */
  lemma {:induction false} CollectedValues(dir: Directory, names: seq<string>)
    ensures forall p :: p in Collected(dir, names) ==> IsFile(dir, p.0) && p.1 == FileText(dir[p.0])
  {
    if names != [] {
      CollectedValues(dir, names[..|names| - 1]);
    }
  }

  /** The result of the collector: exactly the listed names that are files,
      each once and in list order, at most fifteen of them; an unreadable
      file is recorded with the error text instead of failing. */
  lemma ReadImportantFilesSpec(dir: Directory)
    ensures Keys(Collected(dir, ImportantFiles)) == FilesAmong(dir, ImportantFiles)
    ensures forall name :: name in Keys(Collected(dir, ImportantFiles)) <==>
              name in ImportantFiles && IsFile(dir, name)
    ensures Distinct(Keys(Collected(dir, ImportantFiles)))
    ensures |Collected(dir, ImportantFiles)| <= 15
    ensures forall p :: p in Collected(dir, ImportantFiles) ==>
              p.0 in dir && (dir[p.0].Unreadable? ==> p.1 == ReadErrorPrefix + dir[p.0].reason)
  {
    ImportantFilesDistinct();
    CollectedKeys(dir, ImportantFiles);
    FilesAmongSpec(dir, ImportantFiles);
    FilesAmongDistinct(dir, ImportantFiles);
    CollectedValues(dir, ImportantFiles);
  }

  /** Only the listed names matter: two directories that agree on them give
      the same result. */
  lemma {:induction false} CollectedLocal(dir: Directory, other: Directory, names: seq<string>)
    requires forall name :: name in names ==> (name in dir <==> name in other)
    requires forall name :: name in names && name in dir ==> dir[name] == other[name]
    ensures Collected(dir, names) == Collected(other, names)
  {
    if names != [] {
      CollectedLocal(dir, other, names[..|names| - 1]);
      assert names[|names| - 1] in names;
    }
  }
}

=== FILE: directorytree.dfy ===
/**
 * The directory-structure renderer of dockeraizer (generate_directory_markdown).
 * The file system is replaced by a finite tree of entries; reading a directory
 * is reading the `children` of a `Dir` value.
 */
module DirectoryTree {
  import opened Text

  /** A directory entry as `Path.iterdir` would list it. */
  datatype Entry = Dir(name: string, children: seq<Entry>) | File(name: string)

  /** A rendered line: the entry it shows and how deep it is nested. */
  datatype Row = Row(depth: nat, entry: Entry)

  // ---------------------------------------------------------------------
  // Icons. The strings are the characters the source text holds: the UTF-8
  // bytes of the emoji (folder, scroll, framed picture, page, clipboard)
  // read as Mac Roman, which is what the program as written prints.
  // ---------------------------------------------------------------------

  const FolderIcon: string := "\U{F8FF}\U{00FC}\U{00EC}\U{00C5}"
  const CodeIcon: string := "\U{F8FF}\U{00FC}\U{00EC}\U{00FA}"
  const ImageIcon: string := "\U{F8FF}\U{00FC}\U{00F1}\U{00BA}\U{00D4}\U{220F}\U{00E8}"
  const DocumentIcon: string := "\U{F8FF}\U{00FC}\U{00EC}\U{00D1}"
  const DefaultIcon: string := "\U{F8FF}\U{00FC}\U{00EC}\U{00E3}"

  const CodeExtensions: seq<string> := [".py", ".java", ".cpp", ".js"]
  const ImageExtensions: seq<string> := [".jpg", ".png", ".gif", ".bmp"]
  const DocumentExtensions: seq<string> := [".pdf", ".doc", ".docx", ".txt"]

  /** Entries whose name starts with a dot are not listed. */
  predicate IsHidden(e: Entry) {
    StartsWith(e.name, ".")
  }

  /** The listing without hidden entries, in listing order. */
  function Visible(entries: seq<Entry>): (r: seq<Entry>)
    ensures forall x :: x in r ==> x in entries && !IsHidden(x)
  {
    if entries == [] then []
    else (if IsHidden(entries[0]) then [] else [entries[0]]) + Visible(entries[1..])
  }

  lemma {:induction false} VisibleSpec(entries: seq<Entry>)
    ensures forall x :: x in Visible(entries) <==> x in entries && !IsHidden(x)
  {
    if entries != [] {
      VisibleSpec(entries[1..]);
      assert entries == [entries[0]] + entries[1..];
    }
  }

  // ---------------------------------------------------------------------
  // Ordering: the sort key is (not is_dir, lower-cased name).
  // ---------------------------------------------------------------------

  /** Python's `<=` on strings: code point by code point, a prefix first. */
  predicate LexLe(a: string, b: string) {
    if a == [] then true
    else if b == [] then false
    else a[0] < b[0] || (a[0] == b[0] && LexLe(a[1..], b[1..]))
  }

  lemma {:induction false} LexLeTotal(a: string, b: string)
    ensures LexLe(a, b) || LexLe(b, a)
  {
    if a != [] && b != [] && a[0] == b[0] {
      LexLeTotal(a[1..], b[1..]);
    }
  }

  lemma {:induction false} LexLeTrans(a: string, b: string, c: string)
    requires LexLe(a, b) && LexLe(b, c)
    ensures LexLe(a, c)
  {
    if a != [] && b != [] && c != [] && a[0] == b[0] && b[0] == c[0] {
      LexLeTrans(a[1..], b[1..], c[1..]);
    }
  }

  /** The key of `x` is at most the key of `y`: directories before files,
      then by lower-cased name. */
  predicate KeyLe(x: Entry, y: Entry) {
    if x.Dir? != y.Dir? then x.Dir? else LexLe(Lower(x.name), Lower(y.name))
  }

  lemma KeyLeTotal(x: Entry, y: Entry)
    ensures KeyLe(x, y) || KeyLe(y, x)
  {
    LexLeTotal(Lower(x.name), Lower(y.name));
  }

  lemma KeyLeTrans(x: Entry, y: Entry, z: Entry)
    requires KeyLe(x, y) && KeyLe(y, z)
    ensures KeyLe(x, z)
  {
    if x.Dir? == y.Dir? && y.Dir? == z.Dir? {
      LexLeTrans(Lower(x.name), Lower(y.name), Lower(z.name));
    }
  }

  predicate Sorted(s: seq<Entry>) {
    forall i, j :: 0 <= i < j < |s| ==> KeyLe(s[i], s[j])
  }

  /** Puts `x` before the first element whose key is not smaller, so an
      element inserted later into a list never passes an equal key. */
  function Insert(x: Entry, s: seq<Entry>): seq<Entry> {
    if s == [] then [x]
    else if KeyLe(x, s[0]) then [x] + s
    else [s[0]] + Insert(x, s[1..])
  }

  /** `sorted(items, key=...)`: a stable insertion sort. */
  function SortEntries(entries: seq<Entry>): seq<Entry> {
    if entries == [] then []
    else Insert(entries[0], SortEntries(entries[1..]))
  }

  lemma {:induction false} InsertPerm(x: Entry, s: seq<Entry>)
    ensures multiset(Insert(x, s)) == multiset(s) + multiset{x}
  {
    if s != [] && !KeyLe(x, s[0]) {
      InsertPerm(x, s[1..]);
      assert s == [s[0]] + s[1..];
    }
  }

  lemma {:induction false} SortEntriesPerm(entries: seq<Entry>)
    ensures multiset(SortEntries(entries)) == multiset(entries)
  {
    if entries != [] {
      SortEntriesPerm(entries[1..]);
      InsertPerm(entries[0], SortEntries(entries[1..]));
      assert entries == [entries[0]] + entries[1..];
    }
  }

  lemma {:induction false} InsertSorted(x: Entry, s: seq<Entry>)
    requires Sorted(s)
    ensures Sorted(Insert(x, s))
  {
    if s == [] {
    } else if KeyLe(x, s[0]) {
      forall j | 0 < j < |s| ensures KeyLe(x, s[j]) {
        KeyLeTrans(x, s[0], s[j]);
      }
    } else {
      var t := s[1..];
      InsertSorted(x, t);
      var r := Insert(x, t);
      InsertPerm(x, t);
      KeyLeTotal(x, s[0]);
      forall j | 0 <= j < |r| ensures KeyLe(s[0], r[j]) {
        assert r[j] in multiset(r);
        if r[j] != x {
          assert r[j] in multiset(t);
          var k :| 0 <= k < |t| && t[k] == r[j];
          assert s[k + 1] == r[j];
        }
      }
      assert Insert(x, s) == [s[0]] + r;
    }
  }

  lemma {:induction false} SortEntriesSorted(entries: seq<Entry>)
    ensures Sorted(SortEntries(entries))
  {
    if entries != [] {
      SortEntriesSorted(entries[1..]);
      InsertSorted(entries[0], SortEntries(entries[1..]));
    }
  }

  /** One level of the listing as the renderer walks it. */
  function Ordered(children: seq<Entry>): (r: seq<Entry>)
    ensures forall x :: x in r ==> x in children && !IsHidden(x)
  {
    var r := SortEntries(Visible(children));
    assert forall x :: x in r ==> x in multiset(Visible(children)) by {
      SortEntriesPerm(Visible(children));
    }
    r
  }

  /** Each level lists exactly the visible children, each as often as it is
      listed, directories first and every group by lower-cased name. */
  lemma OrderedSpec(children: seq<Entry>)
    ensures multiset(Ordered(children)) == multiset(Visible(children))
    ensures forall x :: x in Ordered(children) <==> x in children && !IsHidden(x)
    ensures forall i, j :: 0 <= i < j < |Ordered(children)| ==>
              KeyLe(Ordered(children)[i], Ordered(children)[j])
  {
    VisibleSpec(children);
    SortEntriesSorted(Visible(children));
    SortEntriesPerm(Visible(children));
    forall x | x in children && !IsHidden(x) ensures x in Ordered(children) {
      assert x in multiset(Visible(children));
    }
  }

  /** Directories come before files at every level. */
  lemma DirectoriesFirst(children: seq<Entry>, i: nat, j: nat)
    requires i < j < |Ordered(children)| && Ordered(children)[j].Dir?
    ensures Ordered(children)[i].Dir?
  {
    OrderedSpec(children);
  }

  // ---------------------------------------------------------------------
  // File icons.
  // ---------------------------------------------------------------------

  /** `str.rfind('.')`. */
  function LastDot(s: string): (r: Option<nat>)
    ensures r.Some? ==> r.value < |s| && s[r.value] == '.' && '.' !in s[r.value + 1..]
    ensures r.None? ==> '.' !in s
  {
    if s == [] then None
    else if s[|s| - 1] == '.' then Some(|s| - 1)
    else
      var r := LastDot(s[..|s| - 1]);
      assert s == s[..|s| - 1] + [s[|s| - 1]];
      r
  }

  /** `PurePath.suffix`: from the last dot on, when that dot is neither the
      first nor the last character of the name. */
  function Suffix(name: string): (r: string)
    ensures r == [] || (2 <= |r| < |name| && r == name[|name| - |r|..] && r[0] == '.' && '.' !in r[1..])
  {
    match LastDot(name)
    case None => ""
    case Some(i) => if 0 < i < |name| - 1 then name[i..] else ""
  }

  /** The icon for a lower-cased extension: code, then image, then
      document, otherwise the default icon. */
  function FileIcon(extension: string): string {
    if extension in CodeExtensions then CodeIcon
    else if extension in ImageExtensions then ImageIcon
    else if extension in DocumentExtensions then DocumentIcon
    else DefaultIcon
  }

  /** The three extension lists share nothing, so each icon is chosen by
      exactly its own list. */
  lemma FileIconSpec(extension: string)
    ensures FileIcon(extension) == CodeIcon <==> extension in CodeExtensions
    ensures FileIcon(extension) == ImageIcon <==> extension in ImageExtensions
    ensures FileIcon(extension) == DocumentIcon <==> extension in DocumentExtensions
    ensures FileIcon(extension) == DefaultIcon <==>
              extension !in CodeExtensions + ImageExtensions + DocumentExtensions
  {
  }

  lemma {:induction false} LastDotLower(s: string)
    ensures LastDot(Lower(s)) == LastDot(s)
  {
    if s != [] {
      var n := |s| - 1;
      assert s == s[..n] + [s[n]];
      LowerAppend(s[..n], [s[n]]);
      assert Lower(s)[..n] == Lower(s[..n]);
      assert Lower(s)[n] == LowerChar(s[n]);
      LastDotLower(s[..n]);
    }
  }

  /** Lower-casing does not move the suffix. */
  lemma SuffixLower(name: string)
    ensures Suffix(Lower(name)) == Lower(Suffix(name))
  {
    LastDotLower(name);
    match LastDot(name)
    case None =>
    case Some(i) =>
      assert name == name[..i] + name[i..];
      LowerAppend(name[..i], name[i..]);
      assert Lower(name)[i..] == Lower(name[i..]);
  }

  /** The icon depends on the name only up to case. */
  lemma IconIgnoresCase(a: string, b: string)
    requires Lower(a) == Lower(b)
    ensures FileIcon(Lower(Suffix(a))) == FileIcon(Lower(Suffix(b)))
  {
    SuffixLower(a);
    SuffixLower(b);
  }

  // ---------------------------------------------------------------------
  // The rendering, specified row by row.
  // ---------------------------------------------------------------------

  /** Four spaces per level: `"    " * indent_level`. */
  function Indent(depth: nat): string {
    if depth == 0 then "" else Indent(depth - 1) + "    "
  }

  lemma {:induction false} IndentSpec(depth: nat)
    ensures |Indent(depth)| == 4 * depth
    ensures forall k :: 0 <= k < |Indent(depth)| ==> Indent(depth)[k] == ' '
  {
    if depth > 0 {
      IndentSpec(depth - 1);
    }
  }

  /** The rows of the subtree under `dir`, rendered at `depth`: every visible
      child in order, each directory followed by its own subtree. */
  function Rows(dir: Entry, depth: nat): seq<Row>
    requires dir.Dir?
    decreases dir, 1
  {
    RowsUpTo(dir, |Ordered(dir.children)|, depth)
  }

  /** The rows of the first `n` ordered children of `dir` and their subtrees. */
  function RowsUpTo(dir: Entry, n: nat, depth: nat): seq<Row>
    requires dir.Dir? && n <= |Ordered(dir.children)|
    decreases dir, 0, n
  {
    if n == 0 then []
    else
      var item := Ordered(dir.children)[n - 1];
      RowsUpTo(dir, n - 1, depth) + [Row(depth, item)] + Subtree(dir, n - 1, depth + 1)
  }

  /** The rows under the `k`-th ordered child: those of its subtree for a
      directory, none for a file. */
  function Subtree(dir: Entry, k: nat, depth: nat): seq<Row>
    requires dir.Dir? && k < |Ordered(dir.children)|
    decreases dir, 0, 0
  {
    var item := Ordered(dir.children)[k];
    assert item in dir.children;
    if item.Dir? then Rows(item, depth) else []
  }

  /** The line of one row. */
  function RowText(row: Row): string {
    if row.entry.Dir? then Indent(row.depth) + FolderIcon + " **" + row.entry.name + "/**\n"
    else Indent(row.depth) + FileIcon(Lower(Suffix(row.entry.name))) + " " + row.entry.name + "\n"
  }

  /** The markdown of a sequence of rows: their lines, one after another. */
  function Render(rows: seq<Row>): string {
    Concat(Lines(rows))
  }

  function Lines(rows: seq<Row>): seq<string> {
    seq(|rows|, k requires 0 <= k < |rows| => RowText(rows[k]))
  }

  lemma RenderAppend(a: seq<Row>, b: seq<Row>)
    ensures Render(a + b) == Render(a) + Render(b)
  {
    assert Lines(a + b) == Lines(a) + Lines(b);
    ConcatAppend(Lines(a), Lines(b));
  }

  lemma RenderSnoc(done: seq<Row>, row: Row, sub: seq<Row>)
    ensures Render(done + [row] + sub) == Render(done) + RowText(row) + Render(sub)
  {
    RenderAppend(done + [row], sub);
    RenderAppend(done, [row]);
    assert Lines([row]) == [RowText(row)];
    assert Concat([RowText(row)]) == RowText(row) by {
      assert [RowText(row)][..0] == [];
    }
  }

  /** `generate_directory_markdown`: a loop over the ordered children that
      appends one line per entry and, for a directory, the markdown of its
      subtree one level deeper. */
  method GenerateDirectoryMarkdown(dir: Entry, indentLevel: nat) returns (markdown: string)
    requires dir.Dir?
    ensures markdown == Render(Rows(dir, indentLevel))
    decreases dir
  {
    markdown := "";
    var items := Visible(dir.children);
    items := SortEntries(items);
    assert items == Ordered(dir.children);
    for i := 0 to |items|
      invariant markdown == Render(RowsUpTo(dir, i, indentLevel))
    {
      var item := items[i];
      assert item in dir.children;
      ghost var done := RowsUpTo(dir, i, indentLevel);
      var indent := Indent(indentLevel);
      var line: string;
      if item.Dir? {
        line := indent + FolderIcon + " **" + item.name + "/**\n";
        markdown := markdown + line;
        var sub := GenerateDirectoryMarkdown(item, indentLevel + 1);
        markdown := markdown + sub;
      } else {
        var extension := Lower(Suffix(item.name));
        var emoji := FileIcon(extension);
        line := indent + emoji + " " + item.name + "\n";
        markdown := markdown + line;
      }
      assert line == RowText(Row(indentLevel, item));
      RenderSnoc(done, Row(indentLevel, item), Subtree(dir, i, indentLevel + 1));
    }
  }

  // ---------------------------------------------------------------------
  // Properties of the rendering.
  // ---------------------------------------------------------------------

  /** No row shows a hidden entry, and no row is shallower than the level
      the rendering started at. */
  lemma {:induction false} RowsVisibleAndDeeper(dir: Entry, depth: nat)
    requires dir.Dir?
    ensures forall r :: r in Rows(dir, depth) ==> r.depth >= depth && !IsHidden(r.entry)
    decreases dir, 1
  {
    RowsUpToVisibleAndDeeper(dir, |Ordered(dir.children)|, depth);
  }

  lemma {:induction false} RowsUpToVisibleAndDeeper(dir: Entry, n: nat, depth: nat)
    requires dir.Dir? && n <= |Ordered(dir.children)|
    ensures forall r :: r in RowsUpTo(dir, n, depth) ==> r.depth >= depth && !IsHidden(r.entry)
    decreases dir, 0, n
  {
    if n > 0 {
      var item := Ordered(dir.children)[n - 1];
      assert item in Ordered(dir.children);
      RowsUpToVisibleAndDeeper(dir, n - 1, depth);
      if item.Dir? {
        RowsVisibleAndDeeper(item, depth + 1);
      }
    }
  }

  /** The entries of the rows at exactly `depth`, in order. */
  function AtDepth(rows: seq<Row>, depth: nat): seq<Entry> {
    if rows == [] then []
    else
      var r := rows[|rows| - 1];
      AtDepth(rows[..|rows| - 1], depth) + (if r.depth == depth then [r.entry] else [])
  }

  lemma {:induction false} AtDepthAppend(a: seq<Row>, b: seq<Row>, depth: nat)
    ensures AtDepth(a + b, depth) == AtDepth(a, depth) + AtDepth(b, depth)
    decreases |b|
  {
    if b == [] {
      assert a + b == a;
    } else {
      var b' := b[..|b| - 1];
      var last := b[|b| - 1];
      var here := if last.depth == depth then [last.entry] else [];
      assert (a + b)[..|a + b| - 1] == a + b';
      assert (a + b)[|a + b| - 1] == last;
      AtDepthAppend(a, b', depth);
      calc {
        AtDepth(a + b, depth);
        AtDepth(a + b', depth) + here;
        AtDepth(a, depth) + AtDepth(b', depth) + here;
        AtDepth(a, depth) + (AtDepth(b', depth) + here);
        AtDepth(a, depth) + AtDepth(b, depth);
      }
    }
  }

  lemma {:induction false} AtDepthNone(rows: seq<Row>, depth: nat)
    requires forall r :: r in rows ==> r.depth > depth
    ensures AtDepth(rows, depth) == []
  {
    if rows != [] {
      AtDepthNone(rows[..|rows| - 1], depth);
    }
  }

  lemma AtDepthSnoc(front: seq<Row>, row: Row, rest: seq<Row>)
    requires forall r :: r in rest ==> r.depth > row.depth
    ensures AtDepth(front + [row] + rest, row.depth) == AtDepth(front, row.depth) + [row.entry]
  {
    AtDepthNone(rest, row.depth);
    AtDepthAppend(front + [row], rest, row.depth);
    AtDepthAppend(front, [row], row.depth);
    assert [row][..0] == [];
  }

  /** The rows at the starting level are exactly the ordered visible
      children: every visible child gets one line there, in sort order. */
  lemma TopLevel(dir: Entry, depth: nat)
    requires dir.Dir?
    ensures AtDepth(Rows(dir, depth), depth) == Ordered(dir.children)
  {
    TopLevelUpTo(dir, |Ordered(dir.children)|, depth);
    assert Ordered(dir.children)[..|Ordered(dir.children)|] == Ordered(dir.children);
  }

  lemma {:induction false} TopLevelUpTo(dir: Entry, n: nat, depth: nat)
    requires dir.Dir? && n <= |Ordered(dir.children)|
    ensures AtDepth(RowsUpTo(dir, n, depth), depth) == Ordered(dir.children)[..n]
  {
    if n > 0 {
      var items := Ordered(dir.children);
      var item := items[n - 1];
      var front := RowsUpTo(dir, n - 1, depth);
      var rest := Subtree(dir, n - 1, depth + 1);
      TopLevelUpTo(dir, n - 1, depth);
      SubtreeDeeper(dir, n - 1, depth + 1);
      assert RowsUpTo(dir, n, depth) == front + [Row(depth, item)] + rest;
      AtDepthSnoc(front, Row(depth, item), rest);
      assert items[..n] == items[..n - 1] + [item];
    }
  }

  /** The rows under a child all lie at the depth they are rendered at or deeper. */
  lemma SubtreeDeeper(dir: Entry, k: nat, depth: nat)
    requires dir.Dir? && k < |Ordered(dir.children)|
    ensures forall r :: r in Subtree(dir, k, depth) ==> r.depth >= depth
  {
    var item := Ordered(dir.children)[k];
    if item.Dir? {
      RowsVisibleAndDeeper(item, depth);
    }
  }

  /** Row `k` shows a directory and the rows right after it are the rows of
      that directory's subtree, one level deeper. */
  predicate SubtreeFollows(rows: seq<Row>, k: nat)
    requires k < |rows| && rows[k].entry.Dir?
  {
    var sub := Rows(rows[k].entry, rows[k].depth + 1);
    k + 1 + |sub| <= |rows| && rows[k + 1..k + 1 + |sub|] == sub
  }

  lemma SubtreeFollowsExtend(rows: seq<Row>, tail: seq<Row>, k: nat)
    requires k < |rows| && rows[k].entry.Dir? && SubtreeFollows(rows, k)
    ensures SubtreeFollows(rows + tail, k)
  {
    var sub := Rows(rows[k].entry, rows[k].depth + 1);
    assert (rows + tail)[k + 1..k + 1 + |sub|] == rows[k + 1..k + 1 + |sub|];
  }

  lemma SubtreeFollowsShift(pre: seq<Row>, rows: seq<Row>, k: nat)
    requires k < |rows| && rows[k].entry.Dir? && SubtreeFollows(rows, k)
    ensures SubtreeFollows(pre + rows, |pre| + k)
  {
    var sub := Rows(rows[k].entry, rows[k].depth + 1);
    assert (pre + rows)[|pre| + k + 1..|pre| + k + 1 + |sub|] == rows[k + 1..k + 1 + |sub|];
  }

  /** A directory's line is immediately followed by the rows of its own
      subtree, one level deeper. */
  lemma {:induction false} DirFollowedBySubtree(dir: Entry, depth: nat, k: nat)
    requires dir.Dir? && k < |Rows(dir, depth)| && Rows(dir, depth)[k].entry.Dir?
    ensures SubtreeFollows(Rows(dir, depth), k)
    decreases dir, 1
  {
    UpToDirFollowedBySubtree(dir, |Ordered(dir.children)|, depth, k);
  }

  lemma {:induction false} UpToDirFollowedBySubtree(dir: Entry, n: nat, depth: nat, k: nat)
    requires dir.Dir? && n <= |Ordered(dir.children)|
    requires k < |RowsUpTo(dir, n, depth)| && RowsUpTo(dir, n, depth)[k].entry.Dir?
    ensures SubtreeFollows(RowsUpTo(dir, n, depth), k)
    decreases dir, 0, n
  {
    var item := Ordered(dir.children)[n - 1];
    assert item in dir.children;
    var front := RowsUpTo(dir, n - 1, depth);
    var rest := Subtree(dir, n - 1, depth + 1);
    var line := front + [Row(depth, item)];
    assert RowsUpTo(dir, n, depth) == line + rest;
    if k < |front| {
      UpToDirFollowedBySubtree(dir, n - 1, depth, k);
      SubtreeFollowsExtend(front, [Row(depth, item)], k);
      SubtreeFollowsExtend(line, rest, k);
    } else if k == |front| {
      assert item.Dir? && rest == Rows(item, depth + 1);
      assert (line + rest)[k + 1..] == rest;
    } else {
      var j := k - |line|;
      assert item.Dir? && rest == Rows(item, depth + 1);
      assert rest[j] == (line + rest)[k];
      DirFollowedBySubtree(item, depth + 1, j);
      SubtreeFollowsShift(line, rest, j);
    }
  }

  /** Each line starts with four spaces per level and ends with a newline;
      when the name holds no newline, that is the line's only newline. */
  lemma RowTextShape(row: Row)
    ensures |RowText(row)| > 4 * row.depth
    ensures forall k :: 0 <= k < 4 * row.depth ==> RowText(row)[k] == ' '
    ensures RowText(row)[|RowText(row)| - 1] == '\n'
    ensures '\n' !in row.entry.name ==>
              forall k :: 0 <= k < |RowText(row)| - 1 ==> RowText(row)[k] != '\n'
  {
    IndentSpec(row.depth);
    var icon := FileIcon(Lower(Suffix(row.entry.name)));
    assert '\n' !in icon;
  }
}

=== FILE: prompt.dfy ===
/**
 * The user prompt dockeraizer sends with each request (stream_response):
 * the rendered directory tree followed by the collected configuration files.
 */
module Prompt {
  import opened Text
  import opened ConfigCollector

  const EntrySeparator: string := "\n\n"
  const TreeHeader: string := "\nDirectory Structure:\n"
  const FilesHeader: string := "\n\nConfiguration Files Found:\n"

  /** The block for one collected file: a `=== name ===` title line, then its text. */
  function ConfigEntryText(name: string, content: string): (r: string)
    ensures |r| == |name| + |content| + 9
  {
    "=== " + name + " ===\n" + content
  }

  function EntryTexts(found: Found): seq<string> {
    seq(|found|, k requires 0 <= k < |found| => ConfigEntryText(found[k].0, found[k].1))
  }

  /** `config_files_text`: the file blocks in collector order, separated by a blank line. */
  function ConfigFilesText(found: Found): string {
    Join(EntrySeparator, EntryTexts(found))
  }

  /** `complete_prompt`. */
  function CompletePrompt(directoryMarkdown: string, configFilesText: string): string {
    TreeHeader + directoryMarkdown + FilesHeader + configFilesText + "\n"
  }

  /** No collected file gives an empty files section, and only then. */
  lemma ConfigFilesTextEmpty(found: Found)
    ensures ConfigFilesText(found) == [] <==> found == []
  {
    if |found| == 1 {
      assert ConfigFilesText(found) == ConfigEntryText(found[0].0, found[0].1);
    } else if |found| > 1 {
      assert |ConfigFilesText(found)| >= |EntryTexts(found)[0]| + 2;
    }
  }

  /** Collecting one more file appends a blank line and its block, so the
      blocks appear in collector order. */
  lemma ConfigFilesTextSnoc(found: Found, name: string, content: string)
    ensures ConfigFilesText(found + [(name, content)]) ==
      (if found == [] then "" else ConfigFilesText(found) + EntrySeparator) + ConfigEntryText(name, content)
  {
    assert EntryTexts(found + [(name, content)]) == EntryTexts(found) + [ConfigEntryText(name, content)];
    if found != [] {
      JoinSnoc(EntrySeparator, EntryTexts(found), ConfigEntryText(name, content));
    } else {
      assert EntryTexts(found + [(name, content)]) == [ConfigEntryText(name, content)];
    }
  }
}

=== FILE: segmenter.dfy ===
/**
 * The response segmenter (`extract_docker_files`): it cuts the model's reply
 * at every "```" fence, takes the text before the first fence as the summary
 * unless that text itself starts with a Dockerfile label, and then lets every
 * remaining block that carries a Dockerfile or a compose label overwrite the
 * corresponding output.
 */
module Segmenter {
  import opened Text

  const Fence := "```"

  /** The labels that are looked for (case-insensitively) at the start of a block. */
  const DockerfileLabel := "dockerfile"
  const YamlLabel := "yaml"
  const ComposeLabel := "docker-compose"

  /** The compose block loses every occurrence of this name before every occurrence of "yaml". */
  const ComposeFileName := "docker-compose.yml"

  /** The three strings the segmenter returns. */
  datatype Parsed = Parsed(dockerfile: string, dockerCompose: string, summary: string)

  /** The two kinds of labelled code block. */
  datatype Label = Dockerfile | Compose

  /** The label test: after trimming and lower-casing, the block starts with `tag`. */
  predicate StartsWithLabel(block: string, tag: string) {
    StartsWith(Lower(Strip(block)), tag)
  }

  /**
   * How the loop classifies a block: the Dockerfile test is made first, so a
   * block counts as a compose block only when it is not a Dockerfile block.
   */
  function Classify(block: string): Option<Label> {
    if StartsWithLabel(block, DockerfileLabel) then Some(Dockerfile)
    else if StartsWithLabel(block, YamlLabel) || StartsWithLabel(block, ComposeLabel) then Some(Compose)
    else None
  }

  /**
   * The text a labelled block contributes.  The label words are removed
   * case-sensitively and everywhere in the block, not only at its start.
   */
  function Cleaned(block: string, kind: Label): string {
    match kind
    case Dockerfile => Strip(Replace(block, DockerfileLabel, ""))
    case Compose => Strip(Replace(Replace(block, ComposeFileName, ""), YamlLabel, ""))
  }

  /** The first segment becomes the summary unless it starts with the Dockerfile label. */
  predicate HasSummary(segments: seq<string>) {
    |segments| > 0 && !StartsWithLabel(segments[0], DockerfileLabel)
  }

  /** The segments that are still in play once the summary, if any, is taken off. */
  function Remaining(segments: seq<string>): seq<string> {
    if HasSummary(segments) then segments[1..] else segments
  }

  /** The blank-segment filter: the segments that are not whitespace only, in order. */
  function NonBlank(segments: seq<string>): (r: seq<string>)
    ensures |r| <= |segments|
  {
    if segments == [] then []
    else
      var last := segments[|segments| - 1];
      NonBlank(segments[..|segments| - 1]) + (if Strip(last) != [] then [last] else [])
  }

  /**
   * The value the loop leaves in the output for `kind` after processing
   * `blocks`: the cleaned text of the last block classified with that label,
   * or the empty string when there is none.
   */
  function Latest(blocks: seq<string>, kind: Label): string {
    if blocks == [] then ""
    else
      var last := blocks[|blocks| - 1];
      if Classify(last) == Some(kind) then Cleaned(last, kind) else Latest(blocks[..|blocks| - 1], kind)
  }

  /** The segments of a reply that are still in play after the summary step. */
  function InPlay(response: string): seq<string> {
    Remaining(Split(response, Fence))
  }

  /** The reference definition of the segmenter's result. */
  function Extract(response: string): Parsed {
    var segments := Split(response, Fence);
    var blocks := NonBlank(InPlay(response));
    Parsed(Latest(blocks, Dockerfile), Latest(blocks, Compose),
           if HasSummary(segments) then Strip(segments[0]) else "")
  }

  /** The segmenter as the source runs it: one pass over the blocks, overwriting the outputs. */
  method ExtractDockerFiles(response: string) returns (dockerfile: string, dockerCompose: string, summary: string)
    ensures Parsed(dockerfile, dockerCompose, summary) == Extract(response)
  {
    dockerfile, dockerCompose, summary := "", "", "";
    var blocks := Split(response, Fence);
    if |blocks| > 0 && !StartsWithLabel(blocks[0], DockerfileLabel) {
      summary := Strip(blocks[0]);
      blocks := blocks[1..];
    }
    blocks := NonBlank(blocks);
    for i := 0 to |blocks|
      invariant dockerfile == Latest(blocks[..i], Dockerfile)
      invariant dockerCompose == Latest(blocks[..i], Compose)
    {
      var block := blocks[i];
      ghost var done := blocks[..i + 1];
      assert done[..i] == blocks[..i] && done[i] == block;
      if StartsWithLabel(block, DockerfileLabel) {
        dockerfile := Strip(Replace(block, DockerfileLabel, ""));
        assert Classify(block) == Some(Dockerfile);
      } else if StartsWithLabel(block, YamlLabel) || StartsWithLabel(block, ComposeLabel) {
        dockerCompose := Strip(Replace(Replace(block, ComposeFileName, ""), YamlLabel, ""));
        assert Classify(block) == Some(Compose);
      } else {
        assert Classify(block) == None;
      }
    }
    assert blocks[..|blocks|] == blocks;
  }

  // ---------------------------------------------------------------------------
  // What the output for each label is

  /** An output comes from the last block with its label: later blocks overwrite earlier ones. */
  lemma {:induction false} LatestIsLastMatch(blocks: seq<string>, kind: Label, i: nat)
    requires i < |blocks| && Classify(blocks[i]) == Some(kind)
    requires forall j :: i < j < |blocks| ==> Classify(blocks[j]) != Some(kind)
    ensures Latest(blocks, kind) == Cleaned(blocks[i], kind)
    decreases |blocks|
  {
    if i < |blocks| - 1 {
      var prefix := blocks[..|blocks| - 1];
      assert forall j :: i < j < |prefix| ==> prefix[j] == blocks[j];
      LatestIsLastMatch(prefix, kind, i);
    }
  }

  /** With no block carrying the label, the output stays empty. */
  lemma {:induction false} LatestWithoutMatch(blocks: seq<string>, kind: Label)
    requires forall j :: 0 <= j < |blocks| ==> Classify(blocks[j]) != Some(kind)
    ensures Latest(blocks, kind) == ""
    decreases |blocks|
  {
    if blocks != [] {
      var prefix := blocks[..|blocks| - 1];
      assert forall j :: 0 <= j < |prefix| ==> prefix[j] == blocks[j];
      LatestWithoutMatch(prefix, kind);
    }
  }

  /** A whitespace-only block carries no label. */
  lemma BlankIsUnlabelled(block: string)
    requires Strip(block) == []
    ensures Classify(block) == None
  {
    assert Lower(Strip(block)) == [];
  }

  /** The blank-segment filter never changes an output: blank blocks are unlabelled anyway. */
  lemma {:induction false} LatestIgnoresBlank(blocks: seq<string>, kind: Label)
    ensures Latest(NonBlank(blocks), kind) == Latest(blocks, kind)
    decreases |blocks|
  {
    if blocks != [] {
      var prefix, last := blocks[..|blocks| - 1], blocks[|blocks| - 1];
      assert blocks[..|blocks| - 1] == prefix;
      LatestIgnoresBlank(prefix, kind);
      if Strip(last) != [] {
        var kept := NonBlank(prefix) + [last];
        assert NonBlank(blocks) == kept;
        assert kept[..|kept| - 1] == NonBlank(prefix);
        assert kept[|kept| - 1] == last;
      } else {
        assert NonBlank(blocks) == NonBlank(prefix) + [] == NonBlank(prefix);
        BlankIsUnlabelled(last);
        assert Latest(blocks, kind) == Latest(prefix, kind);
      }
    }
  }

  /** Every output is the cleaned text of some block, or empty. */
  lemma {:induction false} LatestTrimmed(blocks: seq<string>, kind: Label)
    ensures Strip(Latest(blocks, kind)) == Latest(blocks, kind)
    decreases |blocks|
  {
    if blocks != [] {
      var last := blocks[|blocks| - 1];
      if Classify(last) == Some(kind) {
        match kind
        case Dockerfile => StripIdempotent(Replace(last, DockerfileLabel, ""));
        case Compose => StripIdempotent(Replace(Replace(last, ComposeFileName, ""), YamlLabel, ""));
      } else {
        LatestTrimmed(blocks[..|blocks| - 1], kind);
      }
    }
  }

  // ---------------------------------------------------------------------------
  // Properties of the whole segmenter

  /** The three outputs are always trimmed strings. */
  lemma ExtractTrimmed(response: string)
    ensures var p := Extract(response);
      Strip(p.dockerfile) == p.dockerfile && Strip(p.dockerCompose) == p.dockerCompose
      && Strip(p.summary) == p.summary
  {
    var segments := Split(response, Fence);
    var blocks := NonBlank(Remaining(segments));
    LatestTrimmed(blocks, Dockerfile);
    LatestTrimmed(blocks, Compose);
    if HasSummary(segments) {
      StripIdempotent(segments[0]);
    }
  }

  /** The empty reply gives three empty strings. */
  lemma ExtractEmpty()
    ensures Extract("") == Parsed("", "", "")
  {
    IndexOfNone("", Fence);
  }

  /**
   * A reply without any fence: its trimmed text is the summary, unless it
   * starts with the Dockerfile label, in which case the whole reply is
   * treated as the Dockerfile block.
   */
  lemma ExtractWithoutFence(response: string)
    requires !Contains(response, Fence)
    ensures !StartsWithLabel(response, DockerfileLabel) ==> Extract(response) == Parsed("", "", Strip(response))
    ensures StartsWithLabel(response, DockerfileLabel) ==>
      Extract(response) == Parsed(Cleaned(response, Dockerfile), "", "")
  {
    IndexOfSpec(response, Fence);
    assert Split(response, Fence) == [response];
    if StartsWithLabel(response, DockerfileLabel) {
      assert |Lower(Strip(response))| >= |DockerfileLabel|;
      assert InPlay(response) == [response];
      assert [response][..0] == [];
      assert NonBlank([response]) == NonBlank([]) + [response] == [response];
      assert Classify(response) == Some(Dockerfile);
      assert Latest([response], Dockerfile) == Cleaned(response, Dockerfile);
      assert Latest([response], Compose) == Latest([], Compose) == "";
    } else {
      assert Remaining([response]) == [];
    }
  }

  /**
   * The Dockerfile output is the cleaned text of the last remaining block
   * classified as a Dockerfile block, and empty when there is none.  The
   * same holds for the compose output and compose blocks.
   */
  lemma ExtractTakesLastLabelled(response: string, kind: Label, i: nat)
    requires i < |InPlay(response)| && Classify(InPlay(response)[i]) == Some(kind)
    requires forall j :: i < j < |InPlay(response)| ==> Classify(InPlay(response)[j]) != Some(kind)
    ensures var p := Extract(response);
      (if kind == Dockerfile then p.dockerfile else p.dockerCompose) == Cleaned(InPlay(response)[i], kind)
  {
    var rest := InPlay(response);
    LatestIgnoresBlank(rest, kind);
    LatestIsLastMatch(rest, kind, i);
  }

  /** Without a remaining block carrying the label, that output is empty. */
  lemma ExtractWithoutLabelled(response: string, kind: Label)
    requires forall j :: 0 <= j < |InPlay(response)| ==> Classify(InPlay(response)[j]) != Some(kind)
    ensures var p := Extract(response);
      (if kind == Dockerfile then p.dockerfile else p.dockerCompose) == ""
  {
    var rest := InPlay(response);
    LatestIgnoresBlank(rest, kind);
    LatestWithoutMatch(rest, kind);
    assert Latest(NonBlank(rest), kind) == "";
  }

  /**
   * The summary is the trimmed first segment exactly when that segment does
   * not start with the Dockerfile label; otherwise the summary is empty and
   * the first segment is itself a Dockerfile block that stays in play.
   */
  lemma SummaryOrFirstBlock(response: string)
    ensures var first := Split(response, Fence)[0];
      if !StartsWithLabel(first, DockerfileLabel) then Extract(response).summary == Strip(first)
      else
        Extract(response).summary == "" && InPlay(response)[0] == first
        && Classify(first) == Some(Dockerfile)
  {
  }

  /**
   * Label removal is case-sensitive while the label test is not: a block
   * holding no lower-case "dockerfile" (say one labelled "DOCKERFILE") keeps
   * all of its trimmed text, label included.
   */
  lemma LabelRemovalIsCaseSensitive(block: string)
    requires !Contains(block, DockerfileLabel)
    ensures Cleaned(block, Dockerfile) == Strip(block)
  {
    ReplaceAbsent(block, DockerfileLabel, "");
  }

  /**
   * The Dockerfile label is removed inside the body as well, not only at the
   * start: a block that goes on to mention "dockerfile" once more (say,
   * copying "dockerfile.sh") loses that word too.
   */
  lemma DockerfileLabelRemovedInBody(head: string, tail: string)
    requires !Contains(head, DockerfileLabel) && !Contains(tail, DockerfileLabel)
    ensures Cleaned(DockerfileLabel + head + DockerfileLabel + tail, Dockerfile) == Strip(head + tail)
  {
    assert UniqueHead(DockerfileLabel);
    RemoveBoth(DockerfileLabel, head, tail);
  }

  /**
   * The "yaml" label is removed inside the body as well: a compose block that
   * goes on to mention "yaml" once more (say, mounting "config.yaml") loses
   * that word too.
   */
  lemma YamlLabelRemovedInBody(head: string, tail: string)
    requires !Contains(head, YamlLabel) && !Contains(tail, YamlLabel)
    requires !Contains(YamlLabel + head + YamlLabel + tail, ComposeFileName)
    ensures Cleaned(YamlLabel + head + YamlLabel + tail, Compose) == Strip(head + tail)
  {
    ReplaceAbsent(YamlLabel + head + YamlLabel + tail, ComposeFileName, "");
    assert UniqueHead(YamlLabel);
    RemoveBoth(YamlLabel, head, tail);
  }

  /** An instance: "COPY dockerfile.sh" in a Dockerfile block comes out as "COPY .sh". */
  lemma DockerfileLabelRemovedExample()
    ensures Cleaned(DockerfileLabel + "\nCOPY " + DockerfileLabel + ".sh /\n", Dockerfile) == "COPY .sh /"
  {
    var head, tail := "\nCOPY ", ".sh /\n";
    NotContainsFirst(head, DockerfileLabel);
    NotContainsFirst(tail, DockerfileLabel);
    DockerfileLabelRemovedInBody(head, tail);
    assert head + tail == "\n" + "COPY .sh /" + "\n";
    StripNewlines("COPY .sh /");
  }

  /** A compose block whose parts hold no "d" cannot mention the compose file name. */
  lemma NoComposeFileName(head: string, tail: string)
    requires 'd' !in head && 'd' !in tail
    ensures !Contains(YamlLabel + head + YamlLabel + tail, ComposeFileName)
  {
    var block := YamlLabel + head + YamlLabel + tail;
    assert 'd' !in YamlLabel;
    assert 'd' !in block;
    NotContainsFirst(block, ComposeFileName);
  }

  /** An instance: a compose block naming the file "yaml.env" comes out naming ".env". */
  lemma YamlLabelRemovedExample()
    ensures Cleaned(YamlLabel + "\nenv: " + YamlLabel + ".env\n", Compose) == "env: .env"
  {
    var head, tail := "\nenv: ", ".env\n";
    NotContainsFirst(head, YamlLabel);
    NotContainsFirst(tail, YamlLabel);
    NoComposeFileName(head, tail);
    YamlLabelRemovedInBody(head, tail);
    assert head + tail == "\n" + "env: .env" + "\n";
    StripNewlines("env: .env");
  }

  // ---------------------------------------------------------------------------
  // A reply in the layout the system prompt asks for

  /** A block that starts with a label holding no capital and no whitespace passes that label's test. */
  lemma LabelledBlock(tag: string, body: string)
    requires tag != [] && forall k :: 0 <= k < |tag| ==> !IsSpace(tag[k]) && !('A' <= tag[k] <= 'Z')
    ensures |Strip(tag + body)| >= |tag| && Lower(Strip(tag + body))[..|tag|] == tag
  {
    LowerNoCapitals(tag);
    assert !IsSpace(tag[0]) && !IsSpace(tag[|tag| - 1]);
    var x := tag + body;
    assert LStrip(x) == x;
    RStripSpec(x);
    var r := Strip(x);
    assert r == RStrip(x) && r == x[..|r|];
    assert !IsSpace(x[|tag| - 1]);
    assert r == tag + r[|tag|..];
    LowerAppend(tag, r[|tag|..]);
  }

  /** A block that starts with "dockerfile" is a Dockerfile block. */
  lemma DockerfileBlockClassified(body: string)
    ensures Classify(DockerfileLabel + body) == Some(Dockerfile)
  {
    LabelledBlock(DockerfileLabel, body);
    assert StartsWithLabel(DockerfileLabel + body, DockerfileLabel);
  }

  /** A block that starts with "yaml" is a compose block. */
  lemma YamlBlockClassified(body: string)
    ensures Classify(YamlLabel + body) == Some(Compose)
  {
    LabelledBlock(YamlLabel, body);
    assert Lower(Strip(YamlLabel + body))[0] == 'y';
  }

  /** A block that starts with "docker-compose" is a compose block. */
  lemma ComposeLabelBlockClassified(body: string)
    ensures Classify(ComposeLabel + body) == Some(Compose)
  {
    LabelledBlock(ComposeLabel, body);
    assert Lower(Strip(ComposeLabel + body))[6] == '-';
  }

  /**
   * A reply laid out as the system prompt asks (a summary, a fenced block
   * labelled dockerfile, a fenced block labelled yaml, with only whitespace
   * between and after the blocks) is cut back into exactly those three parts,
   * each trimmed.
   */
  lemma WellFormedReply(summary: string, dockerBody: string, gap: string, composeBody: string, tail: string)
    requires '`' !in summary && '`' !in dockerBody && '`' !in gap && '`' !in composeBody && '`' !in tail
    requires !StartsWithLabel(summary, DockerfileLabel)
    requires Strip(gap) == [] && Strip(tail) == []
    requires !Contains(dockerBody, DockerfileLabel)
    requires !Contains(composeBody, ComposeFileName) && !Contains(composeBody, YamlLabel)
    ensures Extract(summary + Fence + DockerfileLabel + dockerBody + Fence + gap + Fence
                    + YamlLabel + composeBody + Fence + tail)
            == Parsed(Strip(dockerBody), Strip(composeBody), Strip(summary))
  {
    var dockerBlock, composeBlock := DockerfileLabel + dockerBody, YamlLabel + composeBody;
    var response := summary + Fence + DockerfileLabel + dockerBody + Fence + gap + Fence
                    + YamlLabel + composeBody + Fence + tail;
    assert response == summary + Fence + dockerBlock + Fence + gap + Fence + composeBlock + Fence + tail;
    FencedSegments(summary, dockerBlock, gap, composeBlock, tail);
    assert InPlay(response) == [dockerBlock, gap, composeBlock, tail];
    DockerfilePart(response, dockerBody, gap, composeBody, tail);
    ComposePart(response, dockerBody, gap, composeBody, tail);
  }

  /** Four fences with no backquote around them cut a reply into exactly the five pieces between them. */
  lemma FencedSegments(a: string, b: string, c: string, d: string, e: string)
    requires '`' !in a && '`' !in b && '`' !in c && '`' !in d && '`' !in e
    ensures Split(a + Fence + b + Fence + c + Fence + d + Fence + e, Fence) == [a, b, c, d, e]
  {
    var p1 := [a];
    var p2 := p1 + [b];
    var p3 := p2 + [c];
    var p4 := p3 + [d];
    var parts := p4 + [e];
    JoinSnoc(Fence, p1, b);
    JoinSnoc(Fence, p2, c);
    JoinSnoc(Fence, p3, d);
    JoinSnoc(Fence, p4, e);
    assert parts == [a, b, c, d, e];
    assert Fence[0] == '`';
    SplitJoin(parts, Fence);
  }

  /** In a well-formed reply, the Dockerfile output is the trimmed body of the dockerfile block. */
  lemma DockerfilePart(response: string, dockerBody: string, gap: string, composeBody: string, tail: string)
    requires InPlay(response) == [DockerfileLabel + dockerBody, gap, YamlLabel + composeBody, tail]
    requires Strip(gap) == [] && Strip(tail) == []
    requires !Contains(dockerBody, DockerfileLabel)
    ensures Extract(response).dockerfile == Strip(dockerBody)
  {
    DockerfileBlockClassified(dockerBody);
    YamlBlockClassified(composeBody);
    BlankIsUnlabelled(gap);
    BlankIsUnlabelled(tail);
    ExtractTakesLastLabelled(response, Dockerfile, 0);
    RemoveLeading(DockerfileLabel, dockerBody);
  }

  /** In a well-formed reply, the compose output is the trimmed body of the yaml block. */
  lemma ComposePart(response: string, dockerBody: string, gap: string, composeBody: string, tail: string)
    requires InPlay(response) == [DockerfileLabel + dockerBody, gap, YamlLabel + composeBody, tail]
    requires Strip(tail) == []
    requires !Contains(composeBody, ComposeFileName) && !Contains(composeBody, YamlLabel)
    ensures Extract(response).dockerCompose == Strip(composeBody)
  {
    var composeBlock := YamlLabel + composeBody;
    YamlBlockClassified(composeBody);
    BlankIsUnlabelled(tail);
    ExtractTakesLastLabelled(response, Compose, 2);
    NotContainsPrepend(YamlLabel, composeBody, ComposeFileName);
    ReplaceAbsent(composeBlock, ComposeFileName, "");
    RemoveLeading(YamlLabel, composeBody);
  }
}

=== FILE: session.dfy ===
/**
 * The streaming request of dockeraizer (stream_response) and the session
 * state it updates. The completion stream is given as the chunks it
 * delivers and, when it fails, the message of the exception it raises.
 */
module Session {
  import opened Text
  import opened Segmenter
  import opened DirectoryTree
  import opened ConfigCollector
  import opened Prompt

  const StreamErrorPrefix: string := "Error during streaming: "

  /** `part.choices[0].delta.content`: the text of one streamed part, which may be missing. */
  type Chunk = Option<string>

  /** A completion as the client sees it: the parts it delivers in order and,
      when it fails, the message of the exception raised after those parts
      (with no parts, the completion call itself failed). */
  datatype Completion = Completion(parts: seq<Chunk>, failure: Option<string>)

  /** One record of `docker_files`. */
  datatype HistoryEntry = HistoryEntry(timestamp: nat, dockerfile: string, dockerCompose: string, summary: string)

  /** `if chunk:` holds for present, non-empty text. */
  predicate Forwardable(chunk: Chunk) {
    chunk.Some? && chunk.value != []
  }

  /** The chunks passed on to the caller, in arrival order. */
  function Forwarded(parts: seq<Chunk>): (r: seq<string>)
    ensures |r| <= |parts|
  {
    if parts == [] then []
    else
      var last := parts[|parts| - 1];
      Forwarded(parts[..|parts| - 1]) + (if Forwardable(last) then [last.value] else [])
  }

  /** The text of every part, a missing one counting as empty. */
  function AllText(parts: seq<Chunk>): seq<string> {
    seq(|parts|, k requires 0 <= k < |parts| => if parts[k].Some? then parts[k].value else "")
  }

  /** What the generator yields: the forwarded chunks, then one error chunk
      if the stream failed. */
  function Output(completion: Completion): seq<string> {
    Forwarded(completion.parts)
      + (if completion.failure.Some? then [StreamErrorPrefix + completion.failure.value] else [])
  }

  /** The history record kept for a reply. */
  function Record(timestamp: nat, parsed: Parsed): HistoryEntry {
    HistoryEntry(timestamp, parsed.dockerfile, parsed.dockerCompose, parsed.summary)
  }

  /** The chunk loop: pass on each non-empty chunk and accumulate it. */
  method ReadChunks(parts: seq<Chunk>) returns (forwarded: seq<string>, fullResponse: string)
    ensures forwarded == Forwarded(parts)
    ensures fullResponse == Concat(forwarded)
  {
    forwarded, fullResponse := [], "";
    for i := 0 to |parts|
      invariant forwarded == Forwarded(parts[..i])
      invariant fullResponse == Concat(forwarded)
    {
      var chunk := parts[i];
      assert parts[..i + 1][..i] == parts[..i];
      if chunk.Some? && chunk.value != [] {
        fullResponse := fullResponse + chunk.value;
        assert (forwarded + [chunk.value])[..|forwarded|] == forwarded;
        forwarded := forwarded + [chunk.value];
      }
    }
    assert parts[..|parts|] == parts;
  }

  /** Exactly the present, non-empty chunks are forwarded. */
  lemma {:induction false} ForwardedSpec(parts: seq<Chunk>)
    ensures forall s :: s in Forwarded(parts) ==> s != []
    ensures forall k :: 0 <= k < |parts| && Forwardable(parts[k]) ==> parts[k].value in Forwarded(parts)
  {
    if parts != [] {
      ForwardedSpec(parts[..|parts| - 1]);
      assert forall k :: 0 <= k < |parts| - 1 ==> parts[..|parts| - 1][k] == parts[k];
    }
  }

  lemma ConcatSingle(s: string)
    ensures Concat([s]) == s
  {
    assert [s][..0] == [];
  }

  /** Dropping missing and empty chunks loses no text: the full response is
      the text of all parts, one after another. */
  lemma {:induction false} FullResponseIsAllText(parts: seq<Chunk>)
    ensures Concat(Forwarded(parts)) == Concat(AllText(parts))
  {
    if parts != [] {
      var front := parts[..|parts| - 1];
      var last := parts[|parts| - 1];
      FullResponseIsAllText(front);
      assert AllText(parts)[..|parts| - 1] == AllText(front);
      var tail := if Forwardable(last) then [last.value] else [];
      ConcatAppend(Forwarded(front), tail);
      if Forwardable(last) {
        ConcatSingle(last.value);
      }
    }
  }

  /** The full response is empty exactly when no chunk is forwarded. */
  lemma {:induction false} FullResponseEmpty(parts: seq<Chunk>)
    ensures Concat(Forwarded(parts)) == [] <==> forall k :: 0 <= k < |parts| ==> !Forwardable(parts[k])
  {
    if parts != [] {
      var front := parts[..|parts| - 1];
      var last := parts[|parts| - 1];
      FullResponseEmpty(front);
      var tail := if Forwardable(last) then [last.value] else [];
      ConcatAppend(Forwarded(front), tail);
      if Forwardable(last) {
        ConcatSingle(last.value);
      }
      assert forall k :: 0 <= k < |parts| - 1 ==> front[k] == parts[k];
    }
  }

  /** A failed stream ends with exactly one error chunk, after everything
      forwarded before the failure. */
  lemma FailureYieldsOneErrorChunk(completion: Completion)
    requires completion.failure.Some?
    ensures |Output(completion)| == |Forwarded(completion.parts)| + 1
    ensures Output(completion)[..|Output(completion)| - 1] == Forwarded(completion.parts)
    ensures Output(completion)[|Output(completion)| - 1] == StreamErrorPrefix + completion.failure.value
    ensures forall k :: 0 <= k < |Output(completion)| - 1 ==> Output(completion)[k] != []
  {
    ForwardedSpec(completion.parts);
    var f := Forwarded(completion.parts);
    assert Output(completion)[..|f|] == f;
    forall k | 0 <= k < |Output(completion)| - 1 ensures Output(completion)[k] != [] {
      assert Output(completion)[k] == f[k];
      assert f[k] in f;
    }
  }

  /** The session state `stream_response` keeps: the history of generated
      files and the message counter. */
  class SessionState {
    var dockerFiles: seq<HistoryEntry>
    var messageCount: nat

    /** The counter equals the number of records, and each record's
        timestamp is its position. */
    ghost predicate Valid()
      reads this
    {
      messageCount == |dockerFiles| &&
      forall i :: 0 <= i < |dockerFiles| ==> dockerFiles[i].timestamp == i
    }

    /** The initial state set up by `main`. */
    constructor ()
      ensures Valid() && dockerFiles == [] && messageCount == 0
    {
      dockerFiles := [];
      messageCount := 0;
    }

    /** `stream_response`, run to the end of the stream: builds the prompt,
        yields the non-empty chunks (and one error chunk on failure) and,
        when the stream ends normally with a non-empty reply, records the
        files extracted from it under the current counter and bumps the
        counter. */
    method StreamResponse(root: Entry, dir: Directory, completion: Completion)
      returns (prompt: string, output: seq<string>)
      requires root.Dir? && Valid()
      modifies this
      ensures Valid()
      ensures prompt == CompletePrompt(Render(Rows(root, 0)), ConfigFilesText(Collected(dir, ImportantFiles)))
      ensures output == Output(completion)
      ensures var full := Concat(Forwarded(completion.parts));
        if completion.failure.None? && full != [] then
          dockerFiles == old(dockerFiles) + [Record(old(messageCount), Extract(full))] &&
          messageCount == old(messageCount) + 1
        else
          dockerFiles == old(dockerFiles) && messageCount == old(messageCount)
    {
      var directoryMarkdown := GenerateDirectoryMarkdown(root, 0);
      var configFiles := ReadImportantFiles(dir);
      var configFilesText := ConfigFilesText(configFiles);
      prompt := CompletePrompt(directoryMarkdown, configFilesText);

      var forwarded, fullResponse := ReadChunks(completion.parts);
      output := forwarded;
      if completion.failure.Some? {
        output := output + [StreamErrorPrefix + completion.failure.value];
      } else if fullResponse != [] {
        var dockerfile, dockerCompose, summary := ExtractDockerFiles(fullResponse);
        dockerFiles := dockerFiles + [HistoryEntry(messageCount, dockerfile, dockerCompose, summary)];
        messageCount := messageCount + 1;
      }
    }
  }
}

=== FILE: text.dfy ===
/**
 * The handful of Python string operations the tool relies on (`str.strip`,
 * `str.lower`, `str.startswith`, `str.split`, `str.replace`, `str.join`),
 * written out over `seq<char>`.  Characters are treated as ASCII: `Lower`
 * folds only 'A'..'Z', and `Strip` removes only the ASCII characters that
 * Python's `str.isspace` accepts.
 */
module Text {

  datatype Option<T> = None | Some(value: T)

  /** The ASCII characters for which Python's `str.isspace()` holds. */
  predicate IsSpace(c: char) {
    c == ' ' || c == '\t' || c == '\n' || c == '\r' || c == '\U{0B}' || c == '\U{0C}'
    || c == '\U{1C}' || c == '\U{1D}' || c == '\U{1E}' || c == '\U{1F}'
  }

  /** `s.lstrip()`: `s` without its leading whitespace. */
  function LStrip(s: string): (r: string)
    ensures |r| <= |s|
  {
    if s != [] && IsSpace(s[0]) then LStrip(s[1..]) else s
  }

  /** `s.rstrip()`: `s` without its trailing whitespace. */
  function RStrip(s: string): (r: string)
    ensures |r| <= |s|
  {
    if s != [] && IsSpace(s[|s| - 1]) then RStrip(s[..|s| - 1]) else s
  }

  /** `s.strip()`: `s` without its leading and trailing whitespace. */
  function Strip(s: string): (r: string)
    ensures |r| <= |s|
  {
    RStrip(LStrip(s))
  }

  /** `LStrip` drops a run of whitespace from the front, and stops at the first other character. */
  lemma {:induction false} LStripSpec(s: string)
    ensures var r := LStrip(s);
      |r| <= |s| && r == s[|s| - |r|..] && (r == [] || !IsSpace(r[0]))
      && forall k :: 0 <= k < |s| - |r| ==> IsSpace(s[k])
  {
    if s != [] && IsSpace(s[0]) {
      LStripSpec(s[1..]);
    }
  }

  /** `RStrip` drops a run of whitespace from the back, and stops at the last other character. */
  lemma {:induction false} RStripSpec(s: string)
    ensures var r := RStrip(s);
      |r| <= |s| && r == s[..|r|] && (r == [] || !IsSpace(r[|r| - 1]))
      && forall k :: |r| <= k < |s| ==> IsSpace(s[k])
  {
    if s != [] && IsSpace(s[|s| - 1]) {
      RStripSpec(s[..|s| - 1]);
    }
  }

  /**
   * `Strip(s)` is the part of `s` between a whitespace prefix and a
   * whitespace suffix, and neither starts nor ends with whitespace.
   */
  lemma StripSpec(s: string)
    ensures |s| - |LStrip(s)| + |Strip(s)| <= |s|
    ensures Strip(s) == s[|s| - |LStrip(s)|..|s| - |LStrip(s)| + |Strip(s)|]
    ensures forall k :: 0 <= k < |s| - |LStrip(s)| ==> IsSpace(s[k])
    ensures forall k :: |s| - |LStrip(s)| + |Strip(s)| <= k < |s| ==> IsSpace(s[k])
    ensures Strip(s) == [] || (!IsSpace(Strip(s)[0]) && !IsSpace(Strip(s)[|Strip(s)| - 1]))
  {
    var l := LStrip(s);
    LStripSpec(s);
    RStripSpec(l);
    StripInside(s, l, RStrip(l));
  }

  /** The step of `StripSpec` that places the right-stripped part of a suffix back in the whole string. */
  lemma StripInside(s: string, l: string, r: string)
    requires |l| <= |s| && l == s[|s| - |l|..]
    requires |r| <= |l| && r == l[..|r|]
    requires forall k :: |r| <= k < |l| ==> IsSpace(l[k])
    ensures r == s[|s| - |l|..|s| - |l| + |r|]
    ensures forall k :: |s| - |l| + |r| <= k < |s| ==> IsSpace(s[k])
  {
    var a := |s| - |l|;
    forall k | a + |r| <= k < |s| ensures IsSpace(s[k]) {
      assert s[k] == l[k - a];
    }
  }

  /** Text between two line breaks that neither starts nor ends with whitespace is what `strip()` leaves. */
  lemma StripNewlines(m: string)
    requires m != [] && !IsSpace(m[0]) && !IsSpace(m[|m| - 1])
    ensures Strip("\n" + m + "\n") == m
  {
    var x := "\n" + m + "\n";
    assert x[1..] == m + "\n";
    assert LStrip(x) == LStrip(m + "\n") == m + "\n";
    assert (m + "\n")[..|m|] == m;
    assert RStrip(m + "\n") == RStrip(m) == m;
  }

  /** A string is blank (Python: `not s.strip()`) exactly when every character is whitespace. */
  lemma StripEmptyIffBlank(s: string)
    ensures Strip(s) == [] <==> forall k :: 0 <= k < |s| ==> IsSpace(s[k])
  {
    StripSpec(s);
    if Strip(s) != [] {
      var a := |s| - |LStrip(s)|;
      assert Strip(s)[0] == s[a] && !IsSpace(s[a]);
    }
  }

  /** Stripping twice is stripping once, so a stripped result is its own strip. */
  lemma StripIdempotent(s: string)
    ensures Strip(Strip(s)) == Strip(s)
  {
    var r := Strip(s);
    StripSpec(s);
    if r != [] {
      assert LStrip(r) == r;
      assert RStrip(r) == r;
    }
  }

  function LowerChar(c: char): char {
    if 'A' <= c <= 'Z' then (c as int - 'A' as int + 'a' as int) as char else c
  }

  /** `s.lower()` over ASCII letters: character by character, the same length. */
  function Lower(s: string): (r: string)
    ensures |r| == |s|
  {
    if s == [] then [] else [LowerChar(s[0])] + Lower(s[1..])
  }

  lemma {:induction false} LowerSpec(s: string)
    ensures forall k :: 0 <= k < |s| ==> Lower(s)[k] == LowerChar(s[k])
  {
    if s != [] {
      LowerSpec(s[1..]);
    }
  }

  /** Text without capital letters is its own lower-case form. */
  lemma LowerNoCapitals(s: string)
    requires forall k :: 0 <= k < |s| ==> !('A' <= s[k] <= 'Z')
    ensures Lower(s) == s
  {
    LowerSpec(s);
  }

  lemma {:induction false} LowerAppend(a: string, b: string)
    ensures Lower(a + b) == Lower(a) + Lower(b)
  {
    if a != [] {
      assert (a + b)[1..] == a[1..] + b;
      LowerAppend(a[1..], b);
    } else {
      assert a + b == b;
    }
  }

  /** `s.startswith(p)`. */
  predicate StartsWith(s: string, p: string) {
    |p| <= |s| && s[..|p|] == p
  }

  /** `p` occurs in `s` starting at index `i`. */
  predicate OccursAt(s: string, p: string, i: nat) {
    i + |p| <= |s| && s[i..i + |p|] == p
  }

  /** Python's `p in s`. */
  predicate Contains(s: string, p: string) {
    exists i: nat :: i <= |s| && OccursAt(s, p, i)
  }

  /** `s.find(p)`, with `None` for -1. */
  function IndexOf(s: string, p: string): (r: Option<nat>)
    requires p != []
    ensures r.Some? ==> r.value + |p| <= |s|
    decreases |s|
  {
    if |s| < |p| then None
    else if s[..|p|] == p then Some(0)
    else
      match IndexOf(s[1..], p)
      case None => None
      case Some(i) => Some(i + 1)
  }

  /** `IndexOf` finds the first occurrence, and finds none exactly when there is none. */
  lemma {:induction false} IndexOfSpec(s: string, p: string)
    requires p != []
    ensures var r := IndexOf(s, p);
      (r.Some? ==> OccursAt(s, p, r.value) && forall j: nat :: j < r.value ==> !OccursAt(s, p, j))
      && (r.None? <==> !Contains(s, p))
    decreases |s|
  {
    if |s| < |p| {
      assert forall j: nat :: !OccursAt(s, p, j);
    } else if s[..|p|] == p {
      assert OccursAt(s, p, 0);
    } else {
      var t := s[1..];
      IndexOfSpec(t, p);
      assert !OccursAt(s, p, 0);
      match IndexOf(t, p)
      case None =>
        forall j: nat | j <= |s| ensures !OccursAt(s, p, j) {
          if j > 0 {
            OccursShift(s, p, j - 1);
          }
        }
      case Some(i) =>
        OccursShift(s, p, i);
        forall j: nat | j < i + 1 ensures !OccursAt(s, p, j) {
          if j > 0 {
            OccursShift(s, p, j - 1);
          }
        }
    }
  }

  /** An occurrence one place further into `s` is an occurrence in `s[1..]`. */
  lemma OccursShift(s: string, p: string, j: nat)
    requires s != []
    ensures OccursAt(s, p, j + 1) <==> OccursAt(s[1..], p, j)
  {
    if j + 1 + |p| <= |s| {
      assert s[1..][j..j + |p|] == s[j + 1..j + 1 + |p|];
    }
  }

  /**
   * `s.split(sep)` for a non-empty separator: the pieces between the
   * non-overlapping occurrences of `sep`, found left to right.  There is
   * always at least one piece.
   */
  function Split(s: string, sep: string): (parts: seq<string>)
    requires sep != []
    ensures |parts| >= 1
    decreases |s|
  {
    match IndexOf(s, sep)
    case None => [s]
    case Some(i) => [s[..i]] + Split(s[i + |sep|..], sep)
  }

  /** No piece of a split contains the separator. */
  lemma {:induction false} SplitPiecesFree(s: string, sep: string)
    requires sep != []
    ensures forall k :: 0 <= k < |Split(s, sep)| ==> !Contains(Split(s, sep)[k], sep)
    decreases |s|
  {
    IndexOfSpec(s, sep);
    match IndexOf(s, sep)
    case None =>
    case Some(i) =>
      var head, rest := s[..i], s[i + |sep|..];
      assert forall j: nat :: OccursAt(head, sep, j) ==> OccursAt(s, sep, j);
      SplitPiecesFree(rest, sep);
      assert Split(s, sep) == [head] + Split(rest, sep);
  }

  /** `sep.join(parts)`. */
  function Join(sep: string, parts: seq<string>): string {
    if |parts| == 0 then ""
    else if |parts| == 1 then parts[0]
    else parts[0] + sep + Join(sep, parts[1..])
  }

  /** Joining the pieces of a split with the same separator gives back the original string. */
  lemma {:induction false} JoinSplit(s: string, sep: string)
    requires sep != []
    ensures Join(sep, Split(s, sep)) == s
    decreases |s|
  {
    match IndexOf(s, sep)
    case None =>
    case Some(i) =>
      IndexOfFound(s, sep);
      var rest := s[i + |sep|..];
      var tail := Split(rest, sep);
      JoinSplit(rest, sep);
      JoinCons(sep, s[..i], tail);
      assert s == s[..i] + sep + rest;
  }

  /** Where `IndexOf` finds something, the pattern occurs. */
  lemma IndexOfFound(s: string, p: string)
    requires p != [] && IndexOf(s, p).Some?
    ensures s[IndexOf(s, p).value..IndexOf(s, p).value + |p|] == p
  {
    IndexOfSpec(s, p);
  }

  /** A join of a first part and a non-empty rest. */
  lemma JoinCons(sep: string, head: string, tail: seq<string>)
    requires |tail| >= 1
    ensures Join(sep, [head] + tail) == head + sep + Join(sep, tail)
  {
    assert ([head] + tail)[1..] == tail;
  }

  /** When the separator's first character does not occur before index `i`, an occurrence at `i` is the first one. */
  lemma IndexOfAt(s: string, p: string, i: nat)
    requires p != [] && OccursAt(s, p, i) && p[0] !in s[..i]
    ensures IndexOf(s, p) == Some(i)
  {
    IndexOfSpec(s, p);
  }

  /** A string that lacks the separator's first character does not contain the separator. */
  lemma IndexOfNone(s: string, p: string)
    requires p != [] && p[0] !in s
    ensures IndexOf(s, p) == None
  {
    IndexOfSpec(s, p);
  }

  /** A string that lacks the first character of `p` does not contain `p`. */
  lemma NotContainsFirst(s: string, p: string)
    requires p != [] && p[0] !in s
    ensures !Contains(s, p)
  {
    IndexOfNone(s, p);
    IndexOfSpec(s, p);
  }

  /** Prepending text that lacks the first character of `p` cannot create an occurrence of `p`. */
  lemma NotContainsPrepend(a: string, b: string, p: string)
    requires p != [] && p[0] !in a && !Contains(b, p)
    ensures !Contains(a + b, p)
  {
    forall j: nat | j <= |a + b| && OccursAt(a + b, p, j) ensures false {
      if j >= |a| {
        assert (a + b)[j..j + |p|] == b[j - |a|..j - |a| + |p|];
        assert OccursAt(b, p, j - |a|);
      }
    }
  }

  /** Removing every `p` from `p + t`, where `t` has no `p`, leaves `t`. */
  lemma RemoveLeading(p: string, t: string)
    requires p != [] && !Contains(t, p)
    ensures Replace(p + t, p, "") == t
  {
    var s := p + t;
    assert s[..|p|] == p && s[|p|..] == t;
    assert IndexOf(s, p) == Some(0);
    IndexOfSpec(t, p);
    assert Split(s, p) == [""] + Split(t, p) == ["", t];
    assert Join("", ["", t]) == "" + "" + Join("", [t]);
  }

  /**
   * The converse of `JoinSplit`, for pieces in which the separator's first
   * character never occurs: splitting their join gives the pieces back.
   */
  lemma {:induction false} SplitJoin(parts: seq<string>, sep: string)
    requires sep != [] && |parts| >= 1
    requires forall k :: 0 <= k < |parts| ==> sep[0] !in parts[k]
    ensures Split(Join(sep, parts), sep) == parts
  {
    var head := parts[0];
    if |parts| == 1 {
      IndexOfNone(head, sep);
    } else {
      var rest := Join(sep, parts[1..]);
      SplitJoin(parts[1..], sep);
      var s := head + sep + rest;
      assert s[..|head|] == head;
      assert OccursAt(s, sep, |head|);
      IndexOfAt(s, sep, |head|);
      assert s[|head| + |sep|..] == rest;
    }
  }

  /** `s.replace(pat, repl)` for a non-empty pattern: every non-overlapping occurrence replaced. */
  function Replace(s: string, pat: string, repl: string): (r: string)
    requires pat != []
  {
    Join(repl, Split(s, pat))
  }

  /** A string in which the pattern does not occur is left unchanged by `Replace`. */
  lemma ReplaceAbsent(s: string, pat: string, repl: string)
    requires pat != [] && !Contains(s, pat)
    ensures Replace(s, pat, repl) == s
  {
    IndexOfSpec(s, pat);
  }

  /** A join of three parts. */
  lemma JoinThree(sep: string, a: string, b: string, c: string)
    ensures Join(sep, [a, b, c]) == a + sep + b + sep + c
  {
    assert [a, b, c][1..] == [b, c];
    assert [b, c][1..] == [c];
    assert Join(sep, [c]) == c;
    assert Join(sep, [b, c]) == b + sep + c;
    assert Join(sep, [a, b, c]) == a + sep + (b + sep + c);
  }

  /**
   * `Replace` acts on every occurrence: in text made of pieces joined by the
   * pattern, where no piece holds the pattern's first character, each
   * occurrence is replaced.
   */
  lemma ReplaceJoin(parts: seq<string>, pat: string, repl: string)
    requires pat != [] && |parts| >= 1
    requires forall k :: 0 <= k < |parts| ==> pat[0] !in parts[k]
    ensures Replace(Join(pat, parts), pat, repl) == Join(repl, parts)
  {
    SplitJoin(parts, pat);
  }

  /** `p` starts with a character that occurs nowhere else in it, so two occurrences of `p` never overlap. */
  predicate UniqueHead(p: string) {
    p != [] && forall k :: 0 < k < |p| ==> p[k] != p[0]
  }

  /**
   * When `a` does not contain a pattern with a unique first character, the
   * first occurrence of the pattern in `a + p + b` is the `p` after `a`: no
   * occurrence can start inside `a`, not even one reaching into `p`.
   */
  lemma FirstAfter(a: string, p: string, b: string)
    requires UniqueHead(p) && !Contains(a, p)
    ensures IndexOf(a + p + b, p) == Some(|a|)
  {
    var s := a + p + b;
    assert s[|a|..|a| + |p|] == p;
    assert OccursAt(s, p, |a|);
    forall j: nat | j < |a| ensures !OccursAt(s, p, j) {
      if j + |p| <= |a| {
        assert s[j..j + |p|] == a[j..j + |p|];
        assert !OccursAt(a, p, j);
      } else {
        var k := |a| - j;
        assert s[j + k] == p[0] != p[k];
      }
    }
    IndexOfSpec(s, p);
  }

  /** Text holding a pattern with a unique first character exactly once, between two pattern-free parts, splits into those parts. */
  lemma SplitAround(a: string, p: string, b: string)
    requires UniqueHead(p) && !Contains(a, p) && !Contains(b, p)
    ensures Split(a + p + b, p) == [a, b]
  {
    var s := a + p + b;
    FirstAfter(a, p, b);
    assert s[..|a|] == a && s[|a| + |p|..] == b;
    IndexOfSpec(b, p);
  }

  /**
   * `replace(p, "")` removes every occurrence, not only the first: a pattern
   * with a unique first character, found at the start and once more later,
   * disappears both times.
   */
  lemma RemoveBoth(p: string, head: string, tail: string)
    requires UniqueHead(p) && !Contains(head, p) && !Contains(tail, p)
    ensures Replace(p + head + p + tail, p, "") == head + tail
  {
    var s := p + head + p + tail;
    assert s[..|p|] == p;
    assert s[|p|..] == head + p + tail;
    SplitAround(head, p, tail);
    assert Split(s, p) == [""] + [head, tail] == ["", head, tail];
    JoinThree("", "", head, tail);
    assert "" + "" + head + "" + tail == head + tail;
  }

  /** The concatenation `parts[0] + parts[1] + ...`, as built by `+=` in a loop. */
  function Concat(parts: seq<string>): string {
    if parts == [] then "" else Concat(parts[..|parts| - 1]) + parts[|parts| - 1]
  }

  lemma {:induction false} ConcatAppend(a: seq<string>, b: seq<string>)
    ensures Concat(a + b) == Concat(a) + Concat(b)
    decreases |b|
  {
    if b == [] {
      assert a + b == a;
    } else {
      var b' := b[..|b| - 1];
      assert (a + b)[..|a + b| - 1] == a + b';
      assert (a + b)[|a + b| - 1] == b[|b| - 1];
      ConcatAppend(a, b');
    }
  }

  /** Appending a part to a non-empty list appends the separator and the part. */
  lemma {:induction false} JoinSnoc(sep: string, parts: seq<string>, last: string)
    requires parts != []
    ensures Join(sep, parts + [last]) == Join(sep, parts) + sep + last
  {
    if |parts| > 1 {
      assert (parts + [last])[1..] == parts[1..] + [last];
      JoinSnoc(sep, parts[1..], last);
    }
  }
}
